=== FILE: README.md ===
# php-router core, modelled in Dafny

This project models the request-matching and handler-dispatch core of the
`eru123/router` PHP library. It covers both router generations:

- **URL matching** (`src/URL.php`, modules `Patterns` and `Url`). A
  `$name` path template is sanitised. It is then compiled into an anchored
  regular expression, either exact or in directory mode with a trailing
  `file` group. The expression is matched against the sanitised request
  path, and the named captures are extracted.
  - The regular expressions are represented as token lists.
  - `Patterns.Search` is a backtracking matcher that tries captures
    longest-first, as PCRE does for this fragment.
  - `Patterns.Matches` is an independent existential reading of the same
    regex, and the two are proved to agree.
- **Routes** (`src/Route.php`, module `Routes`).
  - Construction and `base()` decide whether a route matches the current
    request: path first, then verb. They also extract its parameters.
  - `exec()` runs the handler chain under the `next()`/`stop()`/`skip()`
    protocol. This includes the error-handler and response-callback exits.
- **Route state** (`src/RouteState.php`, module `RouteStates`): the
  tri-state `next` and `skip` flags, the route-information map,
  `extract_info`, `__get` and `_set`.
- **The older `Router`** (`src/Router.php`, module `Routers`).
  - Route registration with `{name}` templates and a base path.
  - Adopting child routers: their placeholders are recompiled to `.*`.
  - `extract_params` with URL decoding.
  - `exec()`: the first route whose verb and regex match runs its pipe
    chain. A route with no pipes gives a 500 error, and no matching route
    gives a 404.

Modules `Text` and `Values` hold the string helpers (`trim`, `rtrim`,
`strtoupper`) and the dynamic PHP values, errors and request fields.

Everything the source reads from its environment is an explicit parameter:

- `$_SERVER['REQUEST_METHOD']` and `$_SERVER['REQUEST_URI']` become a
  `Request`.
- A handler's effect on the shared state is the list of state calls it
  makes, plus how it ends (a `Reaction`).
- The older router's pipes are opaque references. An `Invoker` function
  interprets them.

Three behaviours of the code that are easy to overlook:

- A directory-mode match with nothing after the prefix yields **no** `file`
  key at all. PHP drops trailing unmatched groups, so the key is absent
  rather than present with a null value.
- The query string is removed only up to the first line feed, because
  `\?.*` does not cross newlines.
- The older `Router` matches the raw `REQUEST_URI` without removing the
  query string. It compares the request verb without upper-casing it.

## Model

| member | source | states |
|---|---|---|
| Text.Trim | src/URL.php:68 | trimming `/` leaves no `/` at either end, never lengthens the string and introduces no character that was absent |
| Text.TrimKeepsMiddle | src/URL.php:68 | trimming removes only the character from the two ends: the input is a run of that character, the trimmed string, and another run of it |
| Text.TrimIdempotent | src/URL.php:68 | trimming twice gives the same string as trimming once |
| Text.Upper | src/Route.php:24 | upper-casing keeps the length and maps each ASCII lower-case letter to its capital, leaving every other character |
| Text.UpperIdempotent | src/Route.php:24 | upper-casing an upper-cased string changes nothing |
| Patterns.TailMatch | src/URL.php:84 | `$` accepts the end of the subject or one final line feed; the directory tail accepts any remainder free of `?`, captured as `file` only when non-empty |
| Patterns.SearchComplete | src/URL.php:18 | the greedy backtracking search finds a match exactly when some choice of capture lengths matches the whole subject |
| Patterns.SearchSound | src/URL.php:31-34 | a successful match captures exactly the template's group names (plus `file` in directory mode), every value lies in its group's character class, and substituting the values back into the template rebuilds the subject |
| Patterns.SearchRecovers | src/URL.php:31-34 | filling a template whose placeholders are whole segments with segment values and matching the result gives back exactly those values (plus the `file` tail) |
| Patterns.Search | src/URL.php:18 | the greedy backtracking search: `Patterns.SearchComplete` proves it finds a match exactly when the existential reading `Patterns.Matches` holds, and `Patterns.SearchSound` what a match captures |
| Url.StripQuery | src/URL.php:67 | the result contains no `?` and is no longer than the input |
| Url.StripQueryDropsQuery | src/URL.php:67 | a path followed by `?` and a single-line query loses the whole query and keeps the path |
| Url.StripQueryLineFeed | src/URL.php:67 | a query stops at the first line feed: the line feed and everything after it are kept, and later queries are stripped in turn |
| Url.Sanitize | src/URL.php:65-70 | a sanitised URI starts with `/`, contains no `?`, and beyond the root neither starts with `//` nor ends with `/` |
| Url.SanitizeKeepsMiddle | src/URL.php:65-70 | after the leading `/`, the sanitised URI is the query-free input with only its leading and trailing runs of `/` removed |
| Url.SanitizeFixes | src/URL.php:65-70 | a URI already in sanitised shape is left unchanged |
| Url.SanitizeIdempotent | src/URL.php:65-70 | sanitising twice equals sanitising once |
| Url.QueryIgnored | src/URL.php:67-68 | a path and the same path with a single-line query string sanitise alike |
| Url.Tokenize | src/URL.php:45-47 | every placeholder the template yields is a `[^/?]+` group whose name matches `[a-zA-Z][a-zA-Z0-9_]*` |
| Url.TokenizeRoundTrip | src/URL.php:45-47 | writing the tokens back as text reproduces the template exactly |
| Url.TokenizeCanonical | src/URL.php:45-47 | the token list is canonical: every group has a well-formed name; no group is followed by a literal word character, so names are as long as the regex makes them; no literal `$` is followed by a literal letter, so every `$name` became a group; a literal first token is the template's first character |
| Url.TokenizeUnique | src/URL.php:45-47 | a canonical token list is the tokenisation of its own text, so tokenising is one-to-one between templates and canonical lists |
| Url.ExactPattern | src/URL.php:42-49 | the exact pattern is the tokenisation of the sanitised template, anchored at both ends; its properties are those of `Url.Tokenize`, `Url.TokenizeCanonical` and `Url.TokenizeUnique` applied to `Url.Sanitize`'s output |
| Url.DirPattern | src/URL.php:77-85 | the directory pattern is the tokenisation of `Url.DirPrefix`, followed by the optional `file` tail of `Patterns.TailMatch` |
| Url.DirPrefix | src/URL.php:79-82 | the directory prefix is the sanitised template without the escaped `/` that `\/$` removes: the root `/` becomes empty; a `/` just before a final line feed is dropped, because `$` also matches before a final newline; any other template is kept whole. The prefix is empty exactly for the root |
| Url.Probe | src/URL.php:16 | whichever of the given URL and the request URI is probed, the path is in sanitised shape |
| Url.Normalize | src/URL.php:113 | a directory capture becomes its slash-trimmed text, or null when that text is `""` or `"0"` |
| Url.NormalizeAll | src/URL.php:111-118 | every key keeps its place and its value is normalised |
| Url.MatchedIff | src/URL.php:14-19 | `matched` is true exactly when the template compiles and some choice of placeholder values matches the probed path |
| Url.Matched | src/URL.php:14-19 | `matched`: its contract is stated by `Url.MatchedIff`, true exactly when the template compiles and some choice of placeholder values matches the probed path |
| Url.Params | src/URL.php:27-35 | `params`: its contract is stated by `Url.ParamsSound` (keys, value shapes and rebuilding the probed path) and `Url.ParamsRecover` (filled URLs give back their values) |
| Url.DirMatched | src/URL.php:93-98 | `dir_matched`: its contract is stated by `Url.DirMatchedIff`, `Url.RootMatchesAll` and `Url.DirLiteralPrefix` |
| Url.DirParams | src/URL.php:106-119 | `dir_params`: its contract is stated by `Url.DirParamsRecover`, normalised values for every placeholder plus `file` exactly when the suffix is non-empty |
| Url.DirMatchedIff | src/URL.php:93-98 | `dir_matched` is true exactly when the directory pattern compiles and some choice of values matches the probed path |
| Url.MatchedCompiles | src/URL.php:14-19 | a path matches, in exact or directory mode, only through a pattern that compiles, so parameters asked for after a match never meet a compile failure |
| Url.ParamsSound | src/URL.php:27-35 | after a match, `params` has exactly one key per placeholder, every value is a non-empty segment without `/` or `?`, and the values rebuild the probed path |
| Url.ParamsRecover | src/URL.php:27-35 | a URL built by filling the template's segment placeholders is matched, and `params` returns exactly the values used |
| Url.DirParamsRecover | src/URL.php:106-119 | a URL built from the directory template and a `/`-led suffix is matched; `dir_params` returns each placeholder's normalised value, plus `file` exactly when the suffix is non-empty |
| Url.RootMatchesAll | src/URL.php:82-84 | the root template in directory mode matches every path and captures it all as `file` |
| Url.DirLiteralPrefix | src/URL.php:84 | a placeholder-free directory template matches any path that merely starts with it, not only at a segment boundary |
| RouteStates.Fresh | src/RouteState.php:7-9 | a new state has both flags unset and no route information |
| RouteStates.ExtractInfo | src/RouteState.php:18-21 | merging keeps both flags, the keys are the union, the route's values win, and other stored values stay |
| RouteStates.ForRoute | src/RouteState.php:11-16 | a state built for a route has both flags unset and holds exactly the route's information |
| RouteStates.Next | src/RouteState.php:35-39 | `next()` sets the next flag to true and changes nothing else |
| RouteStates.Stop | src/RouteState.php:41-45 | `stop()` sets the next flag to false and changes nothing else |
| RouteStates.Skip | src/RouteState.php:23-27 | `skip()` sets the skip flag to true and changes nothing else |
| RouteStates.Unskip | src/RouteState.php:29-33 | `unskip()` sets the skip flag to false and changes nothing else |
| RouteStates.Get | src/RouteState.php:57-68 | reading a name gives its stored value when that value is set and non-null, and null otherwise |
| RouteStates.Set | src/RouteState.php:70-83 | writing never adds or removes a key and never touches the flags; it replaces a key's value only when the name is not reserved and the key holds a non-null value |
| RouteStates.SetThenGet | src/RouteState.php:63-82 | reading back a non-null write returns it when the key was set, and null when it was not |
| RouteStates.ApplyAllNext | src/RouteState.php:35-45 | through the public interface the next flag is decided by the last `next()`/`stop()` call, so once set it can never become unset again |
| RouteStates.ApplyAllKeys | src/RouteState.php:18-83 | route-information keys only grow, and only through `extract_info`: the keys after any sequence of calls are the old keys plus those merged in, so calls without `extract_info` neither add nor remove a key |
| Routes.NormalizeMethod | src/Route.php:24 | a normalised method is the upper-cased method with blanks removed from its two ends only: the upper-cased method is a blank run, the result and another blank run; the result has no blank at either end and no lower-case ASCII letter |
| Routes.NormalizeMethodIdempotent | src/Route.php:38 | normalising a normalised method changes nothing, so the verb check is case- and blank-insensitive on both sides |
| Routes.Locate | src/Route.php:29-41 | a route matches exactly when its path matches in the mode its method selects and its verb admits the request's; a path hit refreshes the parameters, and a miss keeps the old ones |
| Routes.Construct | src/Route.php:22-42 | a new route stores the normalised method, the raw URL and the handlers, with no callbacks; it matches exactly when path and verb both match; on a path hit its parameters are the path's captures, and a path miss leaves no parameters |
| Routes.WithBase | src/Route.php:44-63 | `base()` sets the path to the sanitised base followed by the sanitised path and matches again: the match flag follows path and verb, the parameters are the new path's captures on a hit and the old ones on a miss, and verb, handlers and both callbacks are kept |
| Routes.WithError | src/Route.php:78-82 | setting the error handler changes that field only: verb, path, handlers, parameters, the match flag and the response handler are kept |
| Routes.WithResponse | src/Route.php:84-88 | setting the response handler changes that field only: verb, path, handlers, parameters, the match flag and the error handler are kept |
| Routes.Info | src/Route.php:100-111 | the route information has exactly the keys `method`, `path`, `params` and `matched`, holding the route's verb, path, parameters and match flag |
| Routes.InfoVisible | src/RouteState.php:11-21 | a handler given the default state reads the route's method, path and match flag by name, and a non-null write to `method` is read back |
| Routes.VerbMismatchKeepsParams | src/Route.php:36-41 | a fixed-verb route whose path matches but whose verb differs is unmatched, yet has already stored the new parameters |
| Routes.BaseMissKeepsParams | src/Route.php:57-62 | when the prefixed path misses, `base()` unmatches the route but leaves its earlier parameters |
| Routes.RootDirRouteMatches | src/Route.php:29-31 | a FALLBACK or STATIC route on `/` matches every request, whatever its verb |
| Routes.BaseNotIdempotent | src/Route.php:46 | applying the same non-root base twice yields a strictly longer path than applying it once |
| Routes.Catch | src/Route.php:158-174 | a caught error stops the state. Without an error handler the error escapes with the state stopped. Otherwise the handler's state calls are applied: a returned value becomes the loop's result, and a throw escapes. Either way the next flag ends decided |
| Routes.Loop | src/Route.php:138-175 | the loop ends at once with the current result at the end of the chain, on a pending skip or on a refused `next`. A later handler reached with `next` unset raises the protocol error, and a non-callable one the invalid-handler error, both through `Routes.Catch`. A reachable callable handler runs. The count of handlers run stays within the chain. Without an error handler, an escaping error leaves the state stopped, and a normal end comes at the chain's end, on a skip or on a refusal |
| Routes.LoopStep | src/Route.php:149-157 | a reached callable handler runs on the current state: when it returns, the loop continues at the next handler with its return value as the running result and its state calls applied; when it throws, the error goes to `Routes.Catch` with the state calls applied |
| Routes.InitialState | src/Route.php:124-129 | `exec` uses the caller's state when one is given, and otherwise a fresh state with both flags unset, seeded with the route's information |
| Routes.AfterLoop | src/Route.php:177-194 | a pending skip is cleared, `next` is re-allowed and a skip is reported. A chain of several handlers that left `next` unset raises the protocol error. Otherwise the state is settled to `next` true or false, and the response callback, if any, sees the loop's last result: its return terminates the route with that result, and its throw is raised |
| Routes.Settle | src/Route.php:186-188 | after settling, the next flag is true exactly when it was true before, and false otherwise; the skip flag and the route information are unchanged |
| Routes.Exec | src/Route.php:118-195 | the route reports not-matched exactly when it is unmatched. Otherwise, by how the loop ends: an escaping error is raised with the loop's state; a pending skip is reported with `next` true and `skip` false; otherwise the route terminates with the loop's last result and the settled state, or raises what the response callback throws. No more handlers run than exist |
| Routes.PostLoopCheckUnreachable | src/Route.php:182-184 | whenever the loop from the first handler ends normally without a pending skip, the post-loop condition (several handlers and `next` unset) is false, so that check never raises |
| Routes.LoopSetsNext | src/Route.php:144-155 | from the first handler of a longer chain, or with the next flag decided, a normal loop exit without a pending skip has the next flag decided |
| Routes.FirstHandlerRuns | src/Route.php:138-155 | with `next` unset or allowed and no pending skip, the first callable handler always runs |
| Routes.ProtocolGuard | src/Route.php:144-146 | a later handler with `next` still unset is not run; without an error handler the protocol error escapes with the state stopped |
| Routes.NextRunsRest | src/Route.php:138-155 | once `next` is allowed, a chain of handlers that never stop, skip or throw runs to its end |
| Routes.SingleHandlerStops | src/Route.php:182-188 | a lone handler that calls neither `next()` nor `stop()` is no error: its result reaches the end and the state is stopped |
| Routes.SilentFirstHandlerRaises | src/Route.php:144-146 | in a chain of two, a first handler that only writes route data makes the route raise the protocol error before the second runs |
| Routers.NewRouter | src/Router.php:14-19 | a new router has no routes and an empty base path |
| Routers.Needle | src/Router.php:87-89 | every `{name}` placeholder becomes a group of the requested class whose name is a non-empty alphanumeric string |
| Routers.NeedleRoundTrip | src/Router.php:88 | writing the compiled tokens back as text reproduces the template exactly |
| Routers.NeedleIsCanonical | src/Router.php:88 | the compiled token list is canonical: every group has the requested class and a non-empty alphanumeric name, and no literal `{` starts a `{name}` placeholder in the text the list stands for |
| Routers.NeedleUnique | src/Router.php:88 | a canonical token list is the compilation of its own text, so compiling is one-to-one between templates and canonical lists |
| Routers.PlaceholderValues | src/Router.php:87-131 | a trailing placeholder on a directly registered route accepts one or more alphanumerics; on an adopted route it accepts any single line, empty or with slashes; the value is captured whole |
| Routers.Join | src/Router.php:86 | a joined path is the base, a `/` and the slash-trimmed path; it ends in `/` only when the trimmed path is empty |
| Routers.Base | src/Router.php:67-75 | a null or empty argument reads the base; any other argument stores its longest prefix not ending in `/`, dropping only slashes, and leaves the routes alone |
| Routers.BaseRoundTrip | src/Router.php:67-75 | reading back a stored base gives the argument without its trailing slashes, and the argument itself when it has no slash |
| Routers.Register | src/Router.php:83-97 | registration appends exactly one entry after the existing ones, with the joined path, an alphanumeric-placeholder needle, the upper-cased verb and the given pipes |
| Routers.Get | src/Router.php:105-108 | `get` keeps the base path and the existing routes and appends one entry with the joined path, its alphanumeric-placeholder needle, the verb `GET` and the given pipes |
| Routers.Post | src/Router.php:115-118 | `post` keeps the base path and the existing routes and appends one entry with the joined path, its alphanumeric-placeholder needle, the verb `POST` and the given pipes |
| Routers.AdoptOne | src/Router.php:128-133 | an adopted route is re-joined under this router's base, recompiled with `.*` placeholders, and keeps its verb and pipes |
| Routers.Adopt | src/Router.php:127-134 | every child route is adopted, in order |
| Routers.Add | src/Router.php:124-138 | `add` keeps this router's routes first and appends the adopted child routes in their order |
| Routers.MountedPath | src/Router.php:128 | a route of a child without a base, mounted under base `b`, gets the path it would have had if registered directly under `b` |
| Routers.FirstHit | src/Router.php:168-173 | the index chosen serves the request and no earlier entry does; no index is chosen only when no entry serves it |
| Routers.ExtractParams | src/Router.php:144-159 | the parameters have exactly the named captures as keys, each URL-decoded |
| Routers.Feed | src/Router.php:184 | a later pipe receives its predecessor's result when that is non-null, and exactly the parameters when it is null |
| Routers.ChainSnoc | src/Router.php:180-194 | appending a pipe feeds it the previous chain's result, or the parameters when that result is null, unless the chain threw |
| Routers.RunPipes | src/Router.php:180-194 | the source's shift-then-loop pipe execution computes the recursive chain: first pipe on the parameters, the last result returned as is |
| Routers.Chain | src/Router.php:180-194 | the pipe chain: `Routers.ChainSnoc` states how a longer chain extends a shorter one, and `Routers.RunPipes` that the source's loop computes it |
| Routers.NotFound | src/Router.php:199 | with no serving route the router raises `Route not found` with code 404 |
| Routers.FirstServingRouteWins | src/Router.php:168-194 | the first serving route decides: with no pipes it raises code 500, otherwise its chain runs on its URL-decoded captures |
| Routers.Dispatch | src/Router.php:164-200 | `exec()`: its contract is stated by `Routers.NotFound`, `Routers.FirstServingRouteWins`, `Routers.LaterRoutesShadowed` and `Routers.MissesIgnored` |
| Routers.LaterRoutesShadowed | src/Router.php:168-196 | routes registered after one that already serves the request never change the outcome |
| Routers.MissesIgnored | src/Router.php:168-196 | routes that do not serve the request can be put in front without changing the outcome |
| Routers.UrlDecode | src/Router.php:154 | decoding never lengthens a string |
| Routers.UrlDecodePlain | src/Router.php:154 | a value without `+` or `%`, such as an alphanumeric capture, decodes to itself |
| Routers.UrlRoundTrip | src/Router.php:154 | decoding undoes PHP's `urlencode` on every byte string |

## Left out

- `src/Builtin.php` (static-file serving and the default callbacks) is not part of this model.
- `Router::run`, the `exception`/`error` setters, the default callbacks in the `Router` constructor and the `routes()` getter are not modelled. They format output, set HTTP headers and call `exit`. The routes table is visible directly as a field.
- Regular-expression metacharacters written literally in a template (`.`, `+`, `(`, …) are modelled as literal characters. General PCRE semantics are out of scope.
- PCRE's 32-character limit on group names is not modelled. Longer placeholder names are treated as valid.
- Loose `==` comparisons between numeric strings are not modelled: the `Router` verb check and `in_array` are plain string equality. `is_numeric` key filtering is implicit: named groups never have numeric names.
- Debug mode (`debug`, `debug_data`, the `is_debug`/`debug` fields written onto the state) is left out. It only records diagnostics.
- `state()` and the reflection that instantiates a custom state class are left out. The state is always a `RouteState`.
- The `regex` entry of `Route::info` is left out. It is a diagnostic rendering of the compiled pattern.
- `is_callable` checks: a handler is `Callable` or `NotCallable`, and an absent or non-callable error or response handler is `None`. For the older router, the `Invoker` decides what calling a non-callable pipe does.
- Url.Params, Url.DirParams: a template whose pattern does not compile (a repeated placeholder such as `/$a/$a`, or `$file` in directory mode) makes the source's `preg_match` leave `$matches` null, and the following `array_filter` throws a `TypeError`. The model returns an empty map instead. `Route` asks for parameters only after a match, which `Url.MatchedCompiles` shows needs a compiling pattern, so routes never reach this case.
- `extract_params`' non-array branch is left out. It is reached only when the needle fails to compile, and then `preg_match` reports no match, so the route is skipped and the empty result is never used.
- The `!is_array($this->route)` resets in `__get`/`_set` are left out. The route-information map is always a map here.
- Routes.Exec: handlers affect the state only through its public calls, not through dynamic properties. The state handed to the response callback is the one reported: the callback's own later state calls are discarded by `exit`.
- Routers.UrlDecode: characters stand for bytes. Multi-byte UTF-8 sequences are not decoded as one character.

=== FILE: patterns.dfy ===
/** The fragment of PCRE that both router generations compile their path
    templates into: a `^`-anchored concatenation of literal characters and
    greedy named capture groups over one character class, closed either by
    `$` or by the directory-mode tail `(?P<file>\/?[^\?]+)?$`.

    `Search` is a backtracking matcher that tries every capture longest
    first, which is the order PCRE explores for this fragment, so the
    captures it returns are the ones `preg_match` reports. `Matches` is an
    independent, purely existential reading of the same regex; the two are
    proved to agree on every input. */
module Patterns {
  import opened Text

  /** The character classes of the capture groups. */
  datatype Class =
    | Segment  // `[^\/\?]+` — a `$name` placeholder
    | Alnum    // `[a-zA-Z0-9]+` — a `{name}` placeholder on a directly registered route
    | Any      // `.*` — a `{name}` placeholder on an adopted route

  predicate InClass(k: Class, c: char) {
    match k
    case Segment => c != '/' && c != '?'
    case Alnum => IsAlnum(c)
    case Any => c != '\n'  // PCRE's `.` without the `s` modifier
  }

  /** `+` groups need one character, `*` groups none. */
  function MinLen(k: Class): nat {
    if k == Any then 0 else 1
  }

  predicate AllIn(k: Class, s: string) {
    forall i :: 0 <= i < |s| ==> InClass(k, s[i])
  }

  datatype Tok = Lit(c: char) | Cap(name: string, cls: Class)

  /** How the regex ends: a bare `$`, or the optional trailing `file` group. */
  datatype Tail = Anchored | OptionalFile

  type Captures = map<string, string>

  /** PCRE's `$` without the `D` modifier accepts the end of the subject or
      a single final line feed. */
  predicate AtEnd(s: string) {
    s == [] || s == "\n"
  }

  /** What the tail accepts, and what it captures. */
  function TailMatch(tail: Tail, s: string): (r: Option<Captures>)
    ensures r.Some? <==> (if tail == Anchored then AtEnd(s) else Free(s, '?'))
    ensures r.Some? && tail == Anchored ==> r.value == map[]
    ensures r.Some? && tail == OptionalFile ==>
              (s == [] ==> r.value == map[]) && (s != [] ==> r.value == map["file" := s])
  {
    match tail
    case Anchored => if AtEnd(s) then Some(map[]) else None
    case OptionalFile =>
      if s == [] then Some(map[])
      else if Free(s, '?') then Some(map["file" := s])
      else None
  }

  /** Length of the longest prefix of `s` inside class `k`. */
  function RunLen(k: Class, s: string): (n: nat)
    ensures n <= |s|
    ensures AllIn(k, s[..n])
    ensures n < |s| ==> !InClass(k, s[n])
  {
    if s == [] || !InClass(k, s[0]) then 0
    else
      var n := 1 + RunLen(k, s[1..]);
      assert s[..n] == [s[0]] + s[1..][..n - 1];
      n
  }

  lemma AllInIffShort(k: Class, s: string, n: nat)
    requires n <= |s|
    ensures AllIn(k, s[..n]) <==> n <= RunLen(k, s)
  {
    var r := RunLen(k, s);
    if n > r {
      assert s[..n][r] == s[r];
    }
  }

  function Names(toks: seq<Tok>): (ns: set<string>)
    ensures forall i :: 0 <= i < |toks| && toks[i].Cap? ==> toks[i].name in ns
    ensures forall x :: x in ns ==> exists i :: 0 <= i < |toks| && toks[i].Cap? && toks[i].name == x
  {
    if toks == [] then {}
    else (if toks[0].Cap? then {toks[0].name} else {}) + Names(toks[1..])
  }

  /** No two capture groups share a name (PCRE refuses to compile otherwise). */
  predicate DistinctNames(toks: seq<Tok>) {
    forall i, j :: 0 <= i < j < |toks| && toks[i].Cap? && toks[j].Cap? ==> toks[i].name != toks[j].name
  }

  /** Existential reading: some choice of capture lengths makes the whole
      subject match. This is what `preg_match` returning 1 means. */
  predicate Matches(toks: seq<Tok>, tail: Tail, s: string)
    decreases |toks|
  {
    if toks == [] then TailMatch(tail, s).Some?
    else match toks[0]
      case Lit(c) => s != [] && s[0] == c && Matches(toks[1..], tail, s[1..])
      case Cap(_, k) =>
        exists n :: MinLen(k) <= n <= |s| && AllIn(k, s[..n]) && Matches(toks[1..], tail, s[n..])
  }

  /** Backtracking search, longest capture first. */
  function Search(toks: seq<Tok>, tail: Tail, s: string): Option<Captures>
    decreases |toks|, |s| + 1
  {
    if toks == [] then TailMatch(tail, s)
    else match toks[0]
      case Lit(c) => if s != [] && s[0] == c then Search(toks[1..], tail, s[1..]) else None
      case Cap(name, k) => TryLengths(name, k, toks[1..], tail, s, RunLen(k, s))
  }

  /** Tries capture lengths `n`, `n - 1`, …, `MinLen(k)` in that order. */
  function TryLengths(name: string, k: Class, rest: seq<Tok>, tail: Tail, s: string, n: nat): Option<Captures>
    requires n <= |s|
    decreases |rest| + 1, n
  {
    if n < MinLen(k) then None
    else
      var r := Search(rest, tail, s[n..]);
      if r.Some? then Some(r.value[name := s[..n]])
      else if n == 0 then None
      else TryLengths(name, k, rest, tail, s, n - 1)
  }

  /** The search succeeds exactly when the existential reading holds. */
  lemma {:induction false} SearchComplete(toks: seq<Tok>, tail: Tail, s: string)
    ensures Search(toks, tail, s).Some? <==> Matches(toks, tail, s)
    decreases |toks|, |s| + 1
  {
    if toks != [] {
      match toks[0]
      case Lit(c) =>
        if s != [] && s[0] == c {
          SearchComplete(toks[1..], tail, s[1..]);
        }
      case Cap(name, k) =>
        TryLengthsComplete(name, k, toks[1..], tail, s, RunLen(k, s));
        if Matches(toks, tail, s) {
          var n :| MinLen(k) <= n <= |s| && AllIn(k, s[..n]) && Matches(toks[1..], tail, s[n..]);
          AllInIffShort(k, s, n);
        }
        forall n | MinLen(k) <= n <= RunLen(k, s) && Matches(toks[1..], tail, s[n..])
          ensures AllIn(k, s[..n])
        {
          AllInIffShort(k, s, n);
        }
    }
  }

  lemma {:induction false} TryLengthsComplete(name: string, k: Class, rest: seq<Tok>, tail: Tail, s: string, n: nat)
    requires n <= |s|
    ensures TryLengths(name, k, rest, tail, s, n).Some? <==>
            exists j :: MinLen(k) <= j <= n && Matches(rest, tail, s[j..])
    decreases |rest| + 1, n
  {
    if n >= MinLen(k) {
      SearchComplete(rest, tail, s[n..]);
      if n > 0 && Search(rest, tail, s[n..]).None? {
        TryLengthsComplete(name, k, rest, tail, s, n - 1);
        if exists j :: MinLen(k) <= j <= n && Matches(rest, tail, s[j..]) {
          var j :| MinLen(k) <= j <= n && Matches(rest, tail, s[j..]);
          assert j != n;
        }
      }
    }
  }

  /** The template text with each capture replaced by its value. */
  function Render(toks: seq<Tok>, m: Captures): string
  {
    if toks == [] then []
    else
      (match toks[0]
       case Lit(c) => [c]
       case Cap(name, _) => if name in m then m[name] else []) + Render(toks[1..], m)
  }

  lemma {:induction false} RenderIgnores(toks: seq<Tok>, m: Captures, name: string, v: string)
    requires name !in Names(toks)
    ensures Render(toks, m[name := v]) == Render(toks, m)
  {
    if toks != [] {
      RenderIgnores(toks[1..], m, name, v);
    }
  }

  /** What the tail captured, as text. */
  function TailText(tail: Tail, m: Captures): string {
    if tail == OptionalFile && "file" in m then m["file"] else []
  }

  /** The names a tail may add to the captures. */
  function TailNames(tail: Tail): set<string> {
    if tail == OptionalFile then {"file"} else {}
  }

  /** What a successful search promises about its captures `m`: every
      named group is reported and nothing else but the tail's `file`, every
      capture lies in its class, and putting the captures back into the
      template rebuilds the subject (up to the final line feed `$`
      tolerates). */
  predicate Sound(toks: seq<Tok>, tail: Tail, s: string, m: Captures) {
    && Names(toks) <= m.Keys <= Names(toks) + TailNames(tail)
    && (forall i :: 0 <= i < |toks| && toks[i].Cap? ==> AllIn(toks[i].cls, m[toks[i].name]))
    && (s == Render(toks, m) + TailText(tail, m) || (tail == Anchored && s == Render(toks, m) + "\n"))
  }

  /** Soundness of a successful search. */
  lemma {:induction false} SearchSound(toks: seq<Tok>, tail: Tail, s: string)
    requires DistinctNames(toks)
    requires "file" !in Names(toks) || tail == Anchored
    requires Search(toks, tail, s).Some?
    ensures Sound(toks, tail, s, Search(toks, tail, s).value)
    decreases |toks|, |s| + 1
  {
    if toks == [] {
      assert Render(toks, Search(toks, tail, s).value) == [];
    } else {
      DistinctRest(toks);
      match toks[0]
      case Lit(c) =>
        SearchSound(toks[1..], tail, s[1..]);
        LitSound(toks, tail, s, Search(toks, tail, s).value);
      case Cap(name, k) =>
        assert [Cap(name, k)] + toks[1..] == toks;
        TryLengthsSound(name, k, toks[1..], tail, s, RunLen(k, s));
    }
  }

  lemma DistinctRest(toks: seq<Tok>)
    requires toks != [] && DistinctNames(toks)
    ensures DistinctNames(toks[1..])
    ensures toks[0].Cap? ==> toks[0].name !in Names(toks[1..])
  {
    var rest := toks[1..];
    forall i, j | 0 <= i < j < |rest| && rest[i].Cap? && rest[j].Cap?
      ensures rest[i].name != rest[j].name
    {
      assert rest[i] == toks[i + 1] && rest[j] == toks[j + 1];
    }
    if toks[0].Cap? {
      forall i | 0 <= i < |rest| && rest[i].Cap?
        ensures rest[i].name != toks[0].name
      {
        assert toks[i + 1] == rest[i];
      }
    }
  }

  /** A literal head keeps soundness: the captures of the rest also
      account for the whole template and subject. */
  lemma LitSound(toks: seq<Tok>, tail: Tail, s: string, m: Captures)
    requires toks != [] && toks[0].Lit? && s != [] && s[0] == toks[0].c
    requires Sound(toks[1..], tail, s[1..], m)
    ensures Sound(toks, tail, s, m)
  {
    assert Names(toks) == Names(toks[1..]);
    ShiftClasses(toks, m);
    LitRebuilds(toks, tail, s, m);
  }

  lemma LitRebuilds(toks: seq<Tok>, tail: Tail, s: string, m: Captures)
    requires toks != [] && toks[0].Lit? && s != [] && s[0] == toks[0].c
    requires || s[1..] == Render(toks[1..], m) + TailText(tail, m)
             || (tail == Anchored && s[1..] == Render(toks[1..], m) + "\n")
    ensures || s == Render(toks, m) + TailText(tail, m)
            || (tail == Anchored && s == Render(toks, m) + "\n")
  {
    assert Render(toks, m) == [s[0]] + Render(toks[1..], m);
    assert s == [s[0]] + s[1..];
  }

  /** A capture head bound to a value of its class keeps soundness. */
  lemma CapSound(toks: seq<Tok>, tail: Tail, s: string, n: nat, m: Captures)
    requires toks != [] && toks[0].Cap?
    requires n <= |s| && AllIn(toks[0].cls, s[..n])
    requires toks[0].name !in Names(toks[1..]) && toks[0].name !in TailNames(tail)
    requires Sound(toks[1..], tail, s[n..], m)
    ensures Sound(toks, tail, s, m[toks[0].name := s[..n]])
  {
    var m' := m[toks[0].name := s[..n]];
    CapKeys(toks, tail, m, s[..n]);
    ShiftClasses(toks, m');
    CapRebuilds(toks, tail, s, n, m);
  }

  lemma CapKeys(toks: seq<Tok>, tail: Tail, m: Captures, v: string)
    requires toks != [] && toks[0].Cap?
    requires Names(toks[1..]) <= m.Keys <= Names(toks[1..]) + TailNames(tail)
    ensures Names(toks) <= m[toks[0].name := v].Keys <= Names(toks) + TailNames(tail)
  {
    assert Names(toks) == {toks[0].name} + Names(toks[1..]);
  }

  lemma CapRebuilds(toks: seq<Tok>, tail: Tail, s: string, n: nat, m: Captures)
    requires toks != [] && toks[0].Cap? && n <= |s|
    requires toks[0].name !in Names(toks[1..]) && toks[0].name !in TailNames(tail)
    requires || s[n..] == Render(toks[1..], m) + TailText(tail, m)
             || (tail == Anchored && s[n..] == Render(toks[1..], m) + "\n")
    ensures var m' := m[toks[0].name := s[..n]];
            || s == Render(toks, m') + TailText(tail, m')
            || (tail == Anchored && s == Render(toks, m') + "\n")
  {
    var name := toks[0].name;
    var v := s[..n];
    var m' := m[name := v];
    var r := Render(toks[1..], m);
    RenderIgnores(toks[1..], m, name, v);
    assert Render(toks, m') == v + r;
    assert TailText(tail, m') == TailText(tail, m);
    TakeDrop(s, n);
    if s[n..] == r + TailText(tail, m) {
      SplitAt(v, r, TailText(tail, m));
    } else {
      SplitAt(v, r, "\n");
    }
  }

  lemma TakeDrop(s: string, n: nat)
    requires n <= |s|
    ensures s == s[..n] + s[n..]
  {
  }

  /** Class membership of the captures carries over from the tail of a
      template to the whole when its first token is literal or bound to a
      value of its class. */
  lemma ShiftClasses(toks: seq<Tok>, m: Captures)
    requires toks != []
    requires Names(toks) <= m.Keys
    requires forall i :: 0 <= i < |toks[1..]| && toks[1..][i].Cap? ==> AllIn(toks[1..][i].cls, m[toks[1..][i].name])
    requires toks[0].Cap? ==> AllIn(toks[0].cls, m[toks[0].name])
    ensures forall i :: 0 <= i < |toks| && toks[i].Cap? ==> AllIn(toks[i].cls, m[toks[i].name])
  {
    forall i | 0 <= i < |toks| && toks[i].Cap?
      ensures AllIn(toks[i].cls, m[toks[i].name])
    {
      if i > 0 {
        assert toks[i] == toks[1..][i - 1];
      }
    }
  }

  lemma {:induction false} TryLengthsSound(name: string, k: Class, rest: seq<Tok>, tail: Tail, s: string, n: nat)
    requires n <= RunLen(k, s)
    requires DistinctNames([Cap(name, k)] + rest)
    requires "file" !in Names([Cap(name, k)] + rest) || tail == Anchored
    requires TryLengths(name, k, rest, tail, s, n).Some?
    ensures Sound([Cap(name, k)] + rest, tail, s, TryLengths(name, k, rest, tail, s, n).value)
    decreases |rest| + 1, n
  {
    var toks := [Cap(name, k)] + rest;
    var r := Search(rest, tail, s[n..]);
    if r.Some? {
      DistinctRest(toks);
      assert toks[1..] == rest;
      SearchSound(rest, tail, s[n..]);
      AllInIffShort(k, s, n);
      CapSound(toks, tail, s, n, r.value);
    } else {
      TryLengthsSound(name, k, rest, tail, s, n - 1);
    }
  }

  /** Every capture stands for a whole path segment: it is a `$name`
      group, followed either by a literal `/` or by the end of the template. */
  predicate WholeSegments(toks: seq<Tok>) {
    forall i :: 0 <= i < |toks| && toks[i].Cap? ==>
      toks[i].cls == Segment && (i + 1 == |toks| || toks[i + 1] == Lit('/'))
  }

  /** Captures that fill every named group with a non-empty segment value. */
  predicate Fills(toks: seq<Tok>, m: Captures) {
    forall i :: 0 <= i < |toks| && toks[i].Cap? ==>
      toks[i].name in m && m[toks[i].name] != [] && AllIn(Segment, m[toks[i].name])
  }

  function Restrict(m: Captures, ns: set<string>): (r: Captures)
    ensures r.Keys == m.Keys * ns
    ensures forall x :: x in r ==> r[x] == m[x]
  {
    map x | x in m && x in ns :: m[x]
  }

  /** For whole-segment templates the search is unambiguous: rendering any
      segment values into the template and searching gives back exactly
      those values, plus whatever the tail captures of the suffix `f`. */
  lemma {:induction false} SearchRecovers(toks: seq<Tok>, tail: Tail, m: Captures, f: string)
    requires WholeSegments(toks) && Fills(toks, m)
    requires f == [] || f[0] == '/'
    requires TailMatch(tail, f).Some?
    requires tail == OptionalFile ==> "file" !in Names(toks)
    ensures Search(toks, tail, Render(toks, m) + f) == Some(Restrict(m, Names(toks)) + TailMatch(tail, f).value)
  {
    if toks == [] {
      var tm := TailMatch(tail, f).value;
      assert Render(toks, m) + f == f;
      assert Restrict(m, Names(toks)) + tm == tm;
    } else {
      var rest := toks[1..];
      WholeSegmentsRest(toks, m);
      SearchRecovers(rest, tail, m, f);
      if toks[0].Lit? {
        RecoverLit(toks, tail, m, f);
      } else {
        RecoverCap(toks, tail, m, f);
      }
    }
  }

  lemma WholeSegmentsRest(toks: seq<Tok>, m: Captures)
    requires toks != [] && WholeSegments(toks) && Fills(toks, m)
    ensures WholeSegments(toks[1..]) && Fills(toks[1..], m)
    ensures toks[0].Cap? ==> toks[0].cls == Segment && toks[0].name in m && m[toks[0].name] != [] && AllIn(Segment, m[toks[0].name])
    ensures toks[0].Cap? ==> Render(toks[1..], m) == [] || Render(toks[1..], m)[0] == '/'
  {
    var rest := toks[1..];
    forall i | 0 <= i < |rest| && rest[i].Cap?
      ensures rest[i].cls == Segment && (i + 1 == |rest| || rest[i + 1] == Lit('/'))
      ensures rest[i].name in m && m[rest[i].name] != [] && AllIn(Segment, m[rest[i].name])
    {
      assert rest[i] == toks[i + 1];
    }
    if toks[0].Cap? && rest != [] {
      assert rest[0] == Lit('/');
      assert Render(rest, m) == ['/'] + Render(rest[1..], m);
    }
  }

  lemma RecoverLit(toks: seq<Tok>, tail: Tail, m: Captures, f: string)
    requires toks != [] && toks[0].Lit?
    requires TailMatch(tail, f).Some?
    requires Search(toks[1..], tail, Render(toks[1..], m) + f) == Some(Restrict(m, Names(toks[1..])) + TailMatch(tail, f).value)
    ensures Search(toks, tail, Render(toks, m) + f) == Some(Restrict(m, Names(toks)) + TailMatch(tail, f).value)
  {
    var rest := toks[1..];
    assert Render(toks, m) == [toks[0].c] + Render(rest, m);
    SplitAt([toks[0].c], Render(rest, m), f);
    assert Names(toks) == Names(rest);
  }

  /** The capture step of `SearchRecovers`: the greedy run is exactly the
      rendered value because what follows it is empty or starts with `/`. */
  lemma RecoverCap(toks: seq<Tok>, tail: Tail, m: Captures, f: string)
    requires toks != [] && toks[0].Cap? && toks[0].cls == Segment
    requires toks[0].name in m && m[toks[0].name] != [] && AllIn(Segment, m[toks[0].name])
    requires tail == OptionalFile ==> "file" !in Names(toks)
    requires TailMatch(tail, f).Some?
    requires Render(toks[1..], m) == [] || Render(toks[1..], m)[0] == '/'
    requires f == [] || f[0] == '/'
    requires Search(toks[1..], tail, Render(toks[1..], m) + f) == Some(Restrict(m, Names(toks[1..])) + TailMatch(tail, f).value)
    ensures Search(toks, tail, Render(toks, m) + f) == Some(Restrict(m, Names(toks)) + TailMatch(tail, f).value)
  {
    var rest := toks[1..];
    var name := toks[0].name;
    var v := m[name];
    var sr := Render(rest, m) + f;
    var s := Render(toks, m) + f;
    assert Render(toks, m) == v + Render(rest, m);
    SplitAt(v, Render(rest, m), f);
    GreedyRunStops(v, sr);
    var tm := TailMatch(tail, f).value;
    assert Names(toks) == {name} + Names(rest);
    assert name !in tm.Keys by {
      assert tm.Keys <= TailNames(tail);
    }
    assert Search(toks, tail, s) == Some((Restrict(m, Names(rest)) + tm)[name := v]);
    RestrictAddName(m, Names(rest), tm, name);
  }

  /** Splitting a three-part concatenation after its first part. */
  lemma SplitAt(v: string, a: string, f: string)
    ensures (v + a) + f == v + (a + f)
    ensures ((v + a) + f)[..|v|] == v && ((v + a) + f)[|v|..] == a + f
  {
  }

  /** A segment run followed by nothing or by `/` is taken whole. */
  lemma GreedyRunStops(v: string, sr: string)
    requires AllIn(Segment, v)
    requires sr == [] || sr[0] == '/'
    ensures RunLen(Segment, v + sr) == |v|
  {
    var s := v + sr;
    AllInIffShort(Segment, s, |v|);
    assert s[..|v|] == v;
    if sr != [] {
      assert s[|v|] == sr[0];
    }
  }

  lemma RestrictAddName(m: Captures, ns: set<string>, tm: Captures, name: string)
    requires name in m && name !in tm
    ensures (Restrict(m, ns) + tm)[name := m[name]] == Restrict(m, {name} + ns) + tm
  {
  }
}

=== FILE: route.dfy ===
/** `Route`: one route bound to the current request. Construction decides
    whether it matches (path, then verb) and extracts its parameters;
    `Exec` runs its handler chain under the `next`/`stop`/`skip` protocol
    kept in a `RouteState`. */
module Routes {
  import opened Text
  import opened Values
  import opened Patterns
  import opened Url
  import opened RouteStates

  /** What a handler did: the state calls it made, in order, and how it
      ended. */
  datatype Reaction = Reaction(ops: seq<Op>, outcome: Outcome)

  /** A handler argument is either a PHP callable or something else. */
  datatype Handler = Callable(run: RouteState -> Reaction) | NotCallable

  datatype Route = Route(
    verb: string,
    path: string,
    handlers: seq<Handler>,
    params: map<string, Value>,
    isMatched: bool,
    errorHandler: Option<(Err, RouteState) -> Reaction>,     // `None`: not callable
    responseHandler: Option<(Value, RouteState) -> Reaction>) // `None`: not callable

  /** `trim(strtoupper($method))`. */
  function NormalizeMethod(m: string): (r: string)
    ensures exists a, b :: Upper(m) == a + r + b && AllSpace(a) && AllSpace(b)
    ensures r == [] || (!IsPhpSpace(r[0]) && !IsPhpSpace(r[|r| - 1]))
    ensures forall i :: 0 <= i < |r| ==> !('a' <= r[i] <= 'z')
  {
    var u := Upper(m);
    NoLowerAfterTrim(u);
    TrimSpace(u)
  }

  /** Trimming only removes characters, so it adds no lower-case letter. */
  lemma NoLowerAfterTrim(u: string)
    requires forall i :: 0 <= i < |u| ==> !('a' <= u[i] <= 'z')
    ensures forall i :: 0 <= i < |TrimSpace(u)| ==> !('a' <= TrimSpace(u)[i] <= 'z')
  {
    var t := TrimSpace(u);
    var a, b :| u == a + t + b && AllSpace(a) && AllSpace(b);
    forall i | 0 <= i < |t| ensures !('a' <= t[i] <= 'z') {
      assert t[i] == (a + t + b)[|a| + i];
    }
  }

  /** A normalised verb is its own normalisation, so the verb check is
      insensitive to case and surrounding blanks on both sides. */
  lemma NormalizeMethodIdempotent(m: string)
    ensures NormalizeMethod(NormalizeMethod(m)) == NormalizeMethod(m)
  {
    var n := NormalizeMethod(m);
    UpperFixes(n);
    TrimSpaceFixes(n);
  }

  lemma TrimSpaceFixes(s: string)
    requires s == [] || (!IsPhpSpace(s[0]) && !IsPhpSpace(s[|s| - 1]))
    ensures TrimSpace(s) == s
  {
  }

  /** Directory-mode methods. */
  predicate IsDirMethod(m: string) {
    m == "FALLBACK" || m == "STATIC"
  }

  /** Methods that accept every request verb. */
  predicate IsAnyVerb(m: string) {
    m == "ANY" || IsDirMethod(m)
  }

  /** Route parameters as the route stores them: exact mode keeps the raw
      captures, directory mode keeps the normalised ones (`null` when
      falsy). */
  function FromExact(c: Captures): (m: map<string, Value>)
    ensures m.Keys == c.Keys
    ensures forall k :: k in m ==> m[k] == Str(c[k])
  {
    map k | k in c :: Str(c[k])
  }

  function FromDir(d: map<string, Option<string>>): (m: map<string, Value>)
    ensures m.Keys == d.Keys
    ensures forall k :: k in m ==> (m[k] == Null <==> d[k].None?)
    ensures forall k :: k in m && d[k].Some? ==> m[k] == Str(d[k].value)
  {
    map k | k in d :: if d[k].Some? then Str(d[k].value) else Null
  }

  /** Whether `path` matches the request URI in the mode `verb` selects. */
  predicate PathHit(verb: string, path: string, req: Request) {
    if IsDirMethod(verb) then DirMatched(path, None, req.uri) else Matched(path, None, req.uri)
  }

  /** The parameters `path` yields against the request URI in that mode. */
  function PathParams(verb: string, path: string, req: Request): map<string, Value> {
    if IsDirMethod(verb) then FromDir(DirParams(path, None, req.uri))
    else FromExact(Params(path, None, req.uri))
  }

  /** Whether the route's verb admits the request's verb. */
  predicate VerbOk(verb: string, req: Request) {
    IsAnyVerb(verb) || verb == NormalizeMethod(req.verb)
  }

  /** The matching step the constructor and `base` share: a path hit
      refreshes the parameters, then a verb mismatch clears the match flag
      but leaves the new parameters in place; a path miss clears the flag
      and leaves the previous parameters untouched. */
  function Locate(r: Route, req: Request): (r': Route)
    ensures r'.verb == r.verb && r'.path == r.path && r'.handlers == r.handlers
    ensures r'.errorHandler == r.errorHandler && r'.responseHandler == r.responseHandler
    ensures r'.isMatched <==> PathHit(r.verb, r.path, req) && VerbOk(r.verb, req)
    ensures PathHit(r.verb, r.path, req) ==> r'.params == PathParams(r.verb, r.path, req)
    ensures !PathHit(r.verb, r.path, req) ==> r'.params == r.params
  {
    if PathHit(r.verb, r.path, req) then
      r.(isMatched := VerbOk(r.verb, req), params := PathParams(r.verb, r.path, req))
    else
      r.(isMatched := false)
  }

  /** `new Route($method, $url, ...$handlers)` against `req`. */
  function Construct(verb: string, url: string, handlers: seq<Handler>, req: Request): (r: Route)
    ensures r.verb == NormalizeMethod(verb) && r.path == url && r.handlers == handlers
    ensures r.errorHandler.None? && r.responseHandler.None?
    ensures r.isMatched <==> PathHit(r.verb, url, req) && VerbOk(r.verb, req)
    ensures PathHit(r.verb, url, req) ==> r.params == PathParams(r.verb, url, req)
    ensures !PathHit(r.verb, url, req) ==> r.params == map[]
  {
    Locate(Route(NormalizeMethod(verb), url, handlers, map[], false, None, None), req)
  }

  /** `base($base)`: prefixes the sanitised base to the sanitised path and
      matches again. */
  function WithBase(r: Route, b: string, req: Request): (r': Route)
    ensures r'.path == Sanitize(b) + Sanitize(r.path)
    ensures r'.verb == r.verb && r'.handlers == r.handlers
    ensures r'.isMatched <==> PathHit(r.verb, r'.path, req) && VerbOk(r.verb, req)
    ensures r'.params == if PathHit(r.verb, r'.path, req) then PathParams(r.verb, r'.path, req) else r.params
    ensures r'.errorHandler == r.errorHandler && r'.responseHandler == r.responseHandler
  {
    Locate(r.(path := Sanitize(b) + Sanitize(r.path)), req)
  }

  /** `error($handler)`. */
  function WithError(r: Route, h: Option<(Err, RouteState) -> Reaction>): (r': Route)
    ensures r'.errorHandler == h && r'.responseHandler == r.responseHandler
    ensures r'.verb == r.verb && r'.path == r.path && r'.handlers == r.handlers
    ensures r'.params == r.params && r'.isMatched == r.isMatched
  {
    r.(errorHandler := h)
  }

  /** `response($handler)`. */
  function WithResponse(r: Route, h: Option<(Value, RouteState) -> Reaction>): (r': Route)
    ensures r'.responseHandler == h && r'.errorHandler == r.errorHandler
    ensures r'.verb == r.verb && r'.path == r.path && r'.handlers == r.handlers
    ensures r'.params == r.params && r'.isMatched == r.isMatched
  {
    r.(responseHandler := h)
  }

  /** `info()` without the `regex` entry. */
  function Info(r: Route): (m: map<string, Value>)
    ensures m.Keys == {"method", "path", "params", "matched"}
    ensures m["method"] == Str(r.verb) && m["path"] == Str(r.path)
    ensures m["matched"] == Bool(r.isMatched) && m["params"] == Dict(r.params)
  {
    map["method" := Str(r.verb), "path" := Str(r.path), "params" := Dict(r.params), "matched" := Bool(r.isMatched)]
  }

  /** A handler given the default state reads the route's method, path and
      match flag through `__get`, and `_set` can overwrite the method. */
  lemma InfoVisible(r: Route, v: Value)
    requires v != Null
    ensures var st := InitialState(r, None);
            && Get(st, "method") == Str(r.verb)
            && Get(st, "path") == Str(r.path)
            && Get(st, "matched") == Bool(r.isMatched)
            && Get(Set(st, "method", v), "method") == v
  {
    SetThenGet(InitialState(r, None), "method", v);
  }

  /** A route on a known verb whose path matches but whose verb does not
      is unmatched, yet it has already taken the new parameters. */
  lemma VerbMismatchKeepsParams(verb: string, url: string, handlers: seq<Handler>, req: Request)
    requires PathHit(NormalizeMethod(verb), url, req)
    requires !IsAnyVerb(NormalizeMethod(verb)) && NormalizeMethod(verb) != NormalizeMethod(req.verb)
    ensures !Construct(verb, url, handlers, req).isMatched
    ensures Construct(verb, url, handlers, req).params == PathParams(NormalizeMethod(verb), url, req)
  {
  }

  /** When the prefixed path misses, `base` leaves the parameters of the
      earlier match in place. */
  lemma BaseMissKeepsParams(r: Route, b: string, req: Request)
    requires !PathHit(r.verb, Sanitize(b) + Sanitize(r.path), req)
    ensures !WithBase(r, b, req).isMatched
    ensures WithBase(r, b, req).params == r.params
  {
  }

  /** A directory-mode route on the root path matches every request,
      whatever its verb. */
  lemma RootDirRouteMatches(verb: string, url: string, handlers: seq<Handler>, req: Request)
    requires IsDirMethod(NormalizeMethod(verb)) && Sanitize(url) == "/"
    ensures Construct(verb, url, handlers, req).isMatched
  {
    RootMatchesAll(url, None, req.uri);
  }

  /** Applying a non-root base twice nests it twice: `base` is not
      idempotent. */
  lemma BaseNotIdempotent(r: Route, b: string, req: Request)
    requires Sanitize(b) != "/"
    ensures |WithBase(WithBase(r, b, req), b, req).path| > |WithBase(r, b, req).path|
  {
    BasePathGrows(b, r.path);
  }

  /** The path arithmetic of `BaseNotIdempotent`. */
  lemma BasePathGrows(b: string, p: string)
    requires Sanitize(b) != "/"
    ensures |Sanitize(b) + Sanitize(Sanitize(b) + Sanitize(p))| > |Sanitize(b) + Sanitize(p)|
  {
    JoinSanitized(Sanitize(b), Sanitize(p));
  }

  /** Joining a non-root sanitised prefix with a sanitised path: the result
      sanitises to itself, or, when the path is the root, to the prefix. */
  lemma JoinSanitized(sb: string, sp: string)
    requires Sanitized(sb) && sb != "/" && Sanitized(sp)
    ensures |Sanitize(sb + sp)| >= |sb|
    ensures sp != "/" ==> Sanitize(sb + sp) == sb + sp
  {
    if sp == "/" {
      assert sb + sp == sb + "/";
      SanitizeDropsFinalSlash(sb);
    } else {
      var j := sb + sp;
      assert Free(j, '?') by {
        forall i | 0 <= i < |j| ensures j[i] != '?' {
          if i < |sb| { assert j[i] == sb[i]; } else { assert j[i] == sp[i - |sb|]; }
        }
      }
      assert j[1] == sb[1];
      assert j[|j| - 1] == sp[|sp| - 1];
      SanitizeFixes(j);
    }
  }

  lemma SanitizeDropsFinalSlash(sb: string)
    requires Sanitized(sb) && sb != "/"
    ensures Sanitize(sb + "/") == sb
  {
    var j := sb + "/";
    assert Free(j, '?') by {
      forall i | 0 <= i < |j| ensures j[i] != '?' {
        if i < |sb| { assert j[i] == sb[i]; }
      }
    }
    StripQueryFree(j);
    assert DropLeading(j, '/') == sb[1..] + "/" by {
      assert j[0] == '/' && j[1..] == sb[1..] + "/";
      assert (sb[1..] + "/")[0] == sb[1];
    }
    assert DropTrailing(sb[1..] + "/", '/') == sb[1..] by {
      assert (sb[1..] + "/")[..|sb| - 1] == sb[1..];
    }
    assert "/" + sb[1..] == sb;
  }

  // ---------------------------------------------------------------------
  // Exec
  // ---------------------------------------------------------------------

  /** How `exec` ends. `ran` counts the handlers invoked; they are always
      the first `ran` handlers, in order. */
  datatype ExecOutcome =
    | NotMatched                                             // plain `return`
    | Skipped(state: RouteState, ran: nat)                   // `return null` after skip
    | Raised(error: Err, state: RouteState, ran: nat)        // an exception escapes
    | Terminated(result: Value, state: RouteState, ran: nat) // `exit`, after the response callback

  /** How the handler loop ends: by leaving it normally (break or running
      out of handlers) or by an exception escaping it. */
  datatype LoopEnd =
    | Finished(res: Value, state: RouteState, ran: nat)
    | Escaped(error: Err, state: RouteState, ran: nat)

  /** The `catch` block: the state is stopped, then the error handler's
      result becomes the loop's result, or the error escapes. An exception
      from the error handler itself escapes too. */
  function Catch(e: Err, st: RouteState, eh: Option<(Err, RouteState) -> Reaction>, ran: nat): (l: LoopEnd)
    ensures l.ran == ran
    ensures l.state.allowNext.Some?
    ensures eh.None? ==> l == Escaped(e, Stop(st), ran)
    ensures eh.Some? ==>
              var rr := eh.value(e, Stop(st));
              && l.state == ApplyAll(Stop(st), rr.ops)
              && (rr.outcome.Returned? ==> l.Finished? && l.res == rr.outcome.value)
              && (rr.outcome.Threw? ==> l.Escaped? && l.error == rr.outcome.error)
  {
    var st1 := Stop(st);
    match eh
    case None => Escaped(e, st1, ran)
    case Some(h) =>
      var rr := h(e, st1);
      var st2 := ApplyAll(st1, rr.ops);
      ApplyAllNext(st1, rr.ops);
      match rr.outcome
      case Returned(v) => Finished(v, st2, ran)
      case Threw(e2) => Escaped(e2, st2, ran)
  }

  /** Whether the loop reaches handler `i` and invokes it: no pending
      skip, `next` not refused, and, past the first handler, `next` set. */
  predicate Reaches(st: RouteState, i: nat) {
    !Skipping(st) && st.allowNext != Some(false) && !(st.allowNext.None? && i > 0)
  }

  /** The handler loop from index `i` on, with the last handler result
      `res` and the shared state `st`. */
  function Loop(hs: seq<Handler>, i: nat, res: Value, st: RouteState,
                eh: Option<(Err, RouteState) -> Reaction>): (l: LoopEnd)
    requires i <= |hs|
    ensures i <= l.ran <= |hs|
    ensures eh.None? && l.Escaped? ==> l.state.allowNext == Some(false)
    ensures i == |hs| || Skipping(st) || st.allowNext == Some(false) ==> l == Finished(res, st, i)
    ensures i < |hs| && !Skipping(st) && st.allowNext.None? && i > 0 ==>
              l == Catch(ProtocolViolation, st, eh, i)
    ensures i < |hs| && Reaches(st, i) && hs[i].NotCallable? ==> l == Catch(InvalidHandler, st, eh, i)
    ensures i < |hs| && Reaches(st, i) && hs[i].Callable? ==> l.ran > i
    ensures eh.None? && l.Finished? ==> l.ran == |hs| || Skipping(l.state) || l.state.allowNext == Some(false)
    decreases |hs| - i
  {
    if i == |hs| then Finished(res, st, i)
    else if Skipping(st) then Finished(res, st, i)
    else if st.allowNext.None? && i > 0 then Catch(ProtocolViolation, st, eh, i)
    else if st.allowNext == Some(false) then Finished(res, st, i)
    else match hs[i]
      case NotCallable => Catch(InvalidHandler, st, eh, i)
      case Callable(f) =>
        var rr := f(st);
        var st' := ApplyAll(st, rr.ops);
        match rr.outcome
        case Returned(v) => Loop(hs, i + 1, v, st', eh)
        case Threw(e) => Catch(e, st', eh, i + 1)
  }

  /** A reached callable handler runs on the current state: its calls on
      the state carry over, and its return value becomes the running result
      for the next handler; a throw goes to `Catch` with the count of
      handlers run so far. */
  lemma LoopStep(hs: seq<Handler>, i: nat, res: Value, st: RouteState,
                 eh: Option<(Err, RouteState) -> Reaction>)
    requires i < |hs| && Reaches(st, i) && hs[i].Callable?
    ensures var rr := hs[i].run(st);
            && (rr.outcome.Returned? ==>
                  Loop(hs, i, res, st, eh) == Loop(hs, i + 1, rr.outcome.value, ApplyAll(st, rr.ops), eh))
            && (rr.outcome.Threw? ==>
                  Loop(hs, i, res, st, eh) == Catch(rr.outcome.error, ApplyAll(st, rr.ops), eh, i + 1))
  {
  }

  /** The state `exec` works on: the caller's, or a fresh one seeded with
      the route's information. */
  function InitialState(r: Route, given: Option<RouteState>): (s: RouteState)
    ensures given.None? ==> s.allowNext.None? && s.allowSkip.None? && s.route == Info(r)
    ensures given.Some? ==> s == given.value
  {
    if given.Some? then given.value else ForRoute(Info(r))
  }

  /** `if (!$state->is_allowed_next()) $state->stop();`: only a `next`
      that is exactly `true` survives; anything else becomes `false`. */
  function Settle(st: RouteState): (s: RouteState)
    ensures s.allowNext == Some(st.allowNext == Some(true))
    ensures s.allowSkip == st.allowSkip && s.route == st.route
  {
    if st.allowNext != Some(true) then Stop(st) else st
  }

  /** The post-loop protocol check: a chain of several handlers must end
      with `next` decided. */
  predicate PostLoopViolation(r: Route, st: RouteState) {
    |r.handlers| > 1 && st.allowNext.None?
  }

  /** The code after the loop: a pending skip is cleared and reported; a
      chain of several handlers that left `next` unset is a protocol
      violation; anything but `next() == true` is turned into `stop()`;
      then the response callback sees the last result and the script
      exits. */
  function AfterLoop(r: Route, res: Value, st: RouteState, ran: nat): (o: ExecOutcome)
    ensures !o.NotMatched? && o.ran == ran
    ensures Skipping(st) ==> o == Skipped(Next(Unskip(st)), ran)
    ensures !Skipping(st) && PostLoopViolation(r, st) ==> o == Raised(ProtocolViolation, st, ran)
    ensures o.Terminated? ==> !Skipping(o.state) && o.result == res && o.state == Settle(st)
    ensures !Skipping(st) && !PostLoopViolation(r, st) ==>
              if r.responseHandler.None? then o == Terminated(res, Settle(st), ran)
              else
                var rr := r.responseHandler.value(res, Settle(st));
                && (rr.outcome.Returned? ==> o == Terminated(res, Settle(st), ran))
                && (rr.outcome.Threw? ==> o == Raised(rr.outcome.error, ApplyAll(Settle(st), rr.ops), ran))
  {
    if Skipping(st) then Skipped(Next(Unskip(st)), ran)
    else if PostLoopViolation(r, st) then Raised(ProtocolViolation, st, ran)
    else
      var st2 := Settle(st);
      match r.responseHandler
      case None => Terminated(res, st2, ran)
      case Some(h) =>
        var rr := h(res, st2);
        match rr.outcome
        case Returned(_) => Terminated(res, st2, ran)
        case Threw(e) => Raised(e, ApplyAll(st2, rr.ops), ran)
  }

  /** `exec($state_obj)`. The `Terminated` state is the one handed to the
      response callback. Writing `l` for the loop's end: an escaping
      exception is raised, a pending skip is reported, and otherwise the
      route terminates with the loop's last result and the settled state
      unless the response callback throws; the post-loop protocol check
      never fires. */
  function Exec(r: Route, given: Option<RouteState>): (o: ExecOutcome)
    ensures o.NotMatched? <==> !r.isMatched
    ensures !o.NotMatched? ==> o.ran <= |r.handlers|
    ensures o.Skipped? ==> o.state.allowNext == Some(true) && o.state.allowSkip == Some(false)
    ensures o.Terminated? ==> o.state.allowNext.Some? && !Skipping(o.state)
    ensures r.isMatched ==>
              var l := Loop(r.handlers, 0, Null, InitialState(r, given), r.errorHandler);
              && (l.Escaped? ==> o == Raised(l.error, l.state, l.ran))
              && (l.Finished? && Skipping(l.state) ==> o == Skipped(Next(Unskip(l.state)), l.ran))
              && (l.Finished? && !Skipping(l.state) ==>
                    if r.responseHandler.None? then o == Terminated(l.res, Settle(l.state), l.ran)
                    else
                      var rr := r.responseHandler.value(l.res, Settle(l.state));
                      && (rr.outcome.Returned? ==> o == Terminated(l.res, Settle(l.state), l.ran))
                      && (rr.outcome.Threw? ==> o == Raised(rr.outcome.error, ApplyAll(Settle(l.state), rr.ops), l.ran)))
              && (o.Terminated? ==> o.result == l.res && o.state == Settle(l.state))
  {
    if !r.isMatched then NotMatched
    else
      PostLoopCheckUnreachable(r, given);
      match Loop(r.handlers, 0, Null, InitialState(r, given), r.errorHandler)
      case Escaped(e, st, ran) => Raised(e, st, ran)
      case Finished(res, st, ran) => AfterLoop(r, res, st, ran)
  }

  /** Once the loop is past its first handler the `next` flag can never be
      `null` again when it ends normally without a pending skip, so the
      check after the loop (`count($handlers) > 1` and `next` unset) never
      fires. */
  lemma PostLoopCheckUnreachable(r: Route, given: Option<RouteState>)
    ensures var l := Loop(r.handlers, 0, Null, InitialState(r, given), r.errorHandler);
            l.Finished? && !Skipping(l.state) ==> !PostLoopViolation(r, l.state)
  {
    if |r.handlers| > 1 {
      LoopSetsNext(r.handlers, 0, Null, InitialState(r, given), r.errorHandler);
    }
  }

  /** The invariant behind `PostLoopCheckUnreachable`: started at the first
      handler of a chain of at least two, or later with `next` decided, a
      normal loop exit without a pending skip has `next` decided. */
  lemma {:induction false} LoopSetsNext(hs: seq<Handler>, i: nat, res: Value, st: RouteState,
                                        eh: Option<(Err, RouteState) -> Reaction>)
    requires i <= |hs|
    requires (i == 0 && |hs| > 1) || (0 < i < |hs|) || st.allowNext.Some?
    ensures var l := Loop(hs, i, res, st, eh);
            l.Finished? && !Skipping(l.state) ==> l.state.allowNext.Some?
    decreases |hs| - i
  {
    if i < |hs| && !Skipping(st) && !(st.allowNext.None? && i > 0) && st.allowNext != Some(false) {
      match hs[i]
      case NotCallable =>
      case Callable(f) =>
        var rr := f(st);
        var st' := ApplyAll(st, rr.ops);
        ApplyAllNext(st, rr.ops);
        match rr.outcome
        case Returned(v) => LoopSetsNext(hs, i + 1, v, st', eh);
        case Threw(e) =>
    }
  }

  /** With an unset or allowed `next` and no pending skip, the first
      handler always runs, whatever the state it is given. */
  lemma FirstHandlerRuns(r: Route, given: Option<RouteState>)
    requires r.isMatched && |r.handlers| > 0 && r.handlers[0].Callable?
    requires given.Some? ==> given.value.allowNext != Some(false) && !Skipping(given.value)
    ensures Exec(r, given).ran >= 1
  {
  }

  /** A later handler runs only when the previous one left `next` set: with
      `next` unset at index `i > 0`, the loop raises the protocol error (or
      hands it to the error handler) without running handler `i`. */
  lemma ProtocolGuard(hs: seq<Handler>, i: nat, res: Value, st: RouteState,
                      eh: Option<(Err, RouteState) -> Reaction>)
    requires 0 < i < |hs| && st.allowNext.None? && !Skipping(st)
    ensures Loop(hs, i, res, st, eh).ran == i
    ensures eh.None? ==> Loop(hs, i, res, st, eh) == Escaped(ProtocolViolation, Stop(st), i)
  {
  }

  /** A reaction that returns normally and never calls `stop()` or
      `skip()`. */
  predicate Benign(rr: Reaction) {
    rr.outcome.Returned? && forall k :: 0 <= k < |rr.ops| ==> rr.ops[k] != DoStop && rr.ops[k] != DoSkip
  }

  /** A callable handler whose every reaction is benign. */
  ghost predicate Cooperative(h: Handler) {
    h.Callable? && forall s :: Benign(h.run(s))
  }

  /** One `next()` is enough: once `next` is allowed, a chain of
      cooperative handlers runs to its end, each receiving the previous
      handler's result. */
  lemma {:induction false} NextRunsRest(hs: seq<Handler>, i: nat, res: Value, st: RouteState,
                                        eh: Option<(Err, RouteState) -> Reaction>)
    requires i <= |hs| && st.allowNext == Some(true) && !Skipping(st)
    requires forall j :: i <= j < |hs| ==> Cooperative(hs[j])
    ensures Loop(hs, i, res, st, eh).Finished?
    ensures Loop(hs, i, res, st, eh).ran == |hs|
    decreases |hs| - i
  {
    if i < |hs| {
      var f := hs[i].run;
      var rr := f(st);
      assert Benign(rr);
      KeepsNextAndNoSkip(st, rr.ops);
      NextRunsRest(hs, i + 1, rr.outcome.value, ApplyAll(st, rr.ops), eh);
    }
  }

  /** Calls without `stop()` and `skip()` keep an allowed `next` allowed
      and leave no pending skip. */
  lemma {:induction false} KeepsNextAndNoSkip(st: RouteState, ops: seq<Op>)
    requires st.allowNext == Some(true) && !Skipping(st)
    requires forall k :: 0 <= k < |ops| ==> ops[k] != DoStop && ops[k] != DoSkip
    ensures ApplyAll(st, ops).allowNext == Some(true) && !Skipping(ApplyAll(st, ops))
    decreases |ops|
  {
    if ops != [] {
      KeepsNextAndNoSkip(Apply(st, ops[0]), ops[1..]);
    }
  }

  /** A single handler that neither calls `next()` nor `stop()` is not a
      protocol error: its result reaches the end and the state is stopped. */
  lemma SingleHandlerStops(r: Route, v: Value)
    requires r.isMatched && |r.handlers| == 1 && r.handlers[0].Callable?
    requires r.handlers[0].run(InitialState(r, None)) == Reaction([], Returned(v))
    requires r.responseHandler.None?
    ensures Exec(r, None) == Terminated(v, Stop(InitialState(r, None)), 1)
  {
    var st := InitialState(r, None);
    assert ApplyAll(st, []) == st;
    assert Loop(r.handlers, 1, v, st, r.errorHandler) == Finished(v, st, 1);
    assert Loop(r.handlers, 0, Null, st, r.errorHandler) == Finished(v, st, 1);
  }

  /** In a chain of two, a first handler that calls neither `next()` nor
      `stop()` makes the route raise the protocol error before the second
      handler runs. */
  lemma SilentFirstHandlerRaises(r: Route, ops: seq<Op>, v: Value)
    requires r.isMatched && |r.handlers| == 2 && r.handlers[0].Callable? && r.errorHandler.None?
    requires forall k :: 0 <= k < |ops| ==> ops[k].DoSet?
    requires r.handlers[0].run(InitialState(r, None)) == Reaction(ops, Returned(v))
    ensures Exec(r, None).Raised? && Exec(r, None).error == ProtocolViolation
    ensures Exec(r, None).ran == 1
  {
    var st := InitialState(r, None);
    var st' := ApplyAll(st, ops);
    SetsKeepFlags(st, ops);
    ProtocolGuard(r.handlers, 1, v, st', r.errorHandler);
    assert Loop(r.handlers, 0, Null, st, r.errorHandler) == Loop(r.handlers, 1, v, st', r.errorHandler);
  }

  /** `_set` calls leave both flags as they were. */
  lemma {:induction false} SetsKeepFlags(st: RouteState, ops: seq<Op>)
    requires forall k :: 0 <= k < |ops| ==> ops[k].DoSet?
    ensures ApplyAll(st, ops).allowNext == st.allowNext && ApplyAll(st, ops).allowSkip == st.allowSkip
    decreases |ops|
  {
    if ops != [] {
      SetsKeepFlags(Apply(st, ops[0]), ops[1..]);
    }
  }
}

=== FILE: route_state.dfy ===
/** `RouteState`: the per-execution record a route's handlers share. It
    holds two tri-state control flags and a map of route information. The
    record is immutable here; every mutator returns the updated record
    (the source's mutators return `$this`, so chaining is the same). */
module RouteStates {
  import opened Text
  import opened Values

  datatype RouteState = RouteState(
    allowNext: Option<bool>,  // `null` until a handler calls `next()` or `stop()`
    allowSkip: Option<bool>,  // `null` until a handler calls `skip()` or `unskip()`
    route: map<string, Value>)

  /** `new RouteState()`: both flags unset, no route information. */
  function Fresh(): (s: RouteState)
    ensures s.allowNext.None? && s.allowSkip.None? && s.route == map[]
  {
    RouteState(None, None, map[])
  }

  /** `extract_info`: `array_merge` of the stored information with the
      route's, so the route's keys win and every other key stays. */
  function ExtractInfo(s: RouteState, info: map<string, Value>): (r: RouteState)
    ensures r.allowNext == s.allowNext && r.allowSkip == s.allowSkip
    ensures r.route.Keys == s.route.Keys + info.Keys
    ensures forall k :: k in info ==> r.route[k] == info[k]
    ensures forall k :: k in s.route && k !in info ==> r.route[k] == s.route[k]
  {
    s.(route := s.route + info)
  }

  /** `new RouteState($route)`: a fresh state seeded with the route's info. */
  function ForRoute(info: map<string, Value>): (s: RouteState)
    ensures s.allowNext.None? && s.allowSkip.None? && s.route == info
  {
    ExtractInfo(Fresh(), info)
  }

  function Next(s: RouteState): (r: RouteState)
    ensures r.allowNext == Some(true) && r.allowSkip == s.allowSkip && r.route == s.route
  {
    s.(allowNext := Some(true))
  }

  function Stop(s: RouteState): (r: RouteState)
    ensures r.allowNext == Some(false) && r.allowSkip == s.allowSkip && r.route == s.route
  {
    s.(allowNext := Some(false))
  }

  function Skip(s: RouteState): (r: RouteState)
    ensures r.allowSkip == Some(true) && r.allowNext == s.allowNext && r.route == s.route
  {
    s.(allowSkip := Some(true))
  }

  function Unskip(s: RouteState): (r: RouteState)
    ensures r.allowSkip == Some(false) && r.allowNext == s.allowNext && r.route == s.route
  {
    s.(allowSkip := Some(false))
  }

  /** `is_allowed_skip()` used as a PHP condition: only `true` is truthy. */
  predicate Skipping(s: RouteState) {
    s.allowSkip == Some(true)
  }

  /** `__get`: the stored value when the key is set to something non-null
      (`isset`), otherwise `null`. */
  function Get(s: RouteState, name: string): (v: Value)
    ensures v != Null <==> name in s.route && s.route[name] != Null
    ensures v != Null ==> v == s.route[name]
  {
    if name in s.route && s.route[name] != Null then s.route[name] else Null
  }

  /** The property names `_set` refuses to touch. */
  predicate Reserved(name: string) {
    name == "allow_next" || name == "allow_skip" || name == "route"
  }

  /** `_set`: updates a key only when it is already set to a non-null value
      and is not one of the reserved names; it never adds a key. */
  function Set(s: RouteState, name: string, v: Value): (r: RouteState)
    ensures r.allowNext == s.allowNext && r.allowSkip == s.allowSkip
    ensures r.route.Keys == s.route.Keys
    ensures forall k :: k in s.route && k != name ==> r.route[k] == s.route[k]
    ensures name in s.route ==>
              r.route[name] == (if !Reserved(name) && s.route[name] != Null then v else s.route[name])
  {
    if Reserved(name) then s
    else if name in s.route && s.route[name] != Null then s.(route := s.route[name := v])
    else s
  }

  /** Reading back a written key gives the written value, provided the key
      was set and the new value is not null. */
  lemma SetThenGet(s: RouteState, name: string, v: Value)
    requires !Reserved(name) && v != Null
    ensures Get(Set(s, name, v), name) == (if Get(s, name) != Null then v else Null)
  {
  }

  /** What a handler does to the state through its public interface. */
  datatype Op =
    | DoNext
    | DoStop
    | DoSkip
    | DoUnskip
    | DoSet(name: string, value: Value)
    | DoExtractInfo(info: map<string, Value>)  // the `info()` of the route passed in

  function Apply(s: RouteState, op: Op): RouteState {
    match op
    case DoNext => Next(s)
    case DoStop => Stop(s)
    case DoSkip => Skip(s)
    case DoUnskip => Unskip(s)
    case DoSet(n, v) => Set(s, n, v)
    case DoExtractInfo(info) => ExtractInfo(s, info)
  }

  /** Applies a handler's calls in order. */
  function ApplyAll(s: RouteState, ops: seq<Op>): RouteState
    decreases |ops|
  {
    if ops == [] then s else ApplyAll(Apply(s, ops[0]), ops[1..])
  }

  /** The `next` flag after a run of calls: the last `next()`/`stop()`
      decides, and with neither the flag is untouched. */
  function LastNext(start: Option<bool>, ops: seq<Op>): Option<bool>
    decreases |ops|
  {
    if ops == [] then start
    else LastNext(if ops[0] == DoNext then Some(true) else if ops[0] == DoStop then Some(false) else start, ops[1..])
  }

  /** Through the public interface the `next` flag follows `LastNext`: in
      particular, once set it can never return to `null`, and calls other
      than `next()`/`stop()` leave it alone. */
  lemma {:induction false} ApplyAllNext(s: RouteState, ops: seq<Op>)
    ensures ApplyAll(s, ops).allowNext == LastNext(s.allowNext, ops)
    ensures s.allowNext.Some? ==> ApplyAll(s, ops).allowNext.Some?
    decreases |ops|
  {
    if ops != [] {
      ApplyAllNext(Apply(s, ops[0]), ops[1..]);
      LastNextKeepsSome(if ops[0] == DoNext then Some(true) else if ops[0] == DoStop then Some(false) else s.allowNext, ops[1..]);
    }
  }

  lemma {:induction false} LastNextKeepsSome(start: Option<bool>, ops: seq<Op>)
    ensures start.Some? ==> LastNext(start, ops).Some?
    decreases |ops|
  {
    if ops != [] {
      LastNextKeepsSome(if ops[0] == DoNext then Some(true) else if ops[0] == DoStop then Some(false) else start, ops[1..]);
    }
  }

  /** The keys a run of calls merges in through `extract_info`. */
  function MergedKeys(ops: seq<Op>): set<string>
    decreases |ops|
  {
    if ops == [] then {}
    else (if ops[0].DoExtractInfo? then ops[0].info.Keys else {}) + MergedKeys(ops[1..])
  }

  /** Route-information keys only grow, and only through `extract_info`:
      `_set` never adds or removes one, and the flag calls leave the map
      alone. */
  lemma {:induction false} ApplyAllKeys(s: RouteState, ops: seq<Op>)
    ensures ApplyAll(s, ops).route.Keys == s.route.Keys + MergedKeys(ops)
    ensures (forall k :: 0 <= k < |ops| ==> !ops[k].DoExtractInfo?) ==> ApplyAll(s, ops).route.Keys == s.route.Keys
    decreases |ops|
  {
    if ops != [] {
      ApplyAllKeys(Apply(s, ops[0]), ops[1..]);
      if forall k :: 0 <= k < |ops| ==> !ops[k].DoExtractInfo? {
        assert forall k :: 0 <= k < |ops[1..]| ==> ops[1..][k] == ops[k + 1];
      }
    }
  }

}

=== FILE: router.dfy ===
/** `Router`: the older router generation. It keeps an ordered table of
    routes whose `{name}` templates compile to anchored regexes, adopts the
    routes of child routers under its own base path, and dispatches a
    request to the first route whose verb and regex both match, running
    that route's pipes as a chain. */
module Routers {
  import opened Text
  import opened Values
  import opened Patterns
  import opened Url

  /** An opaque reference to a pipe (a PHP callable). The router only
      stores and calls pipes; what a call does is supplied by an `Invoker`,
      which also decides what happens when the reference is not callable. */
  type PipeRef = nat
  type Invoker = (PipeRef, Value) -> Outcome

  /** A route table entry: the full path, its compiled regex, the
      upper-cased verb and the pipes. */
  datatype Entry = Entry(path: string, needle: seq<Tok>, verb: string, pipes: seq<PipeRef>)

  datatype Router = Router(routes: seq<Entry>, basePath: string)

  /** A router with no routes and an empty base path. */
  function NewRouter(): (rt: Router)
    ensures rt.routes == [] && rt.basePath == ""
  {
    Router([], "")
  }

  // ---------------------------------------------------------------------
  // The `{name}` template dialect
  // ---------------------------------------------------------------------

  /** Length of the `[a-zA-Z0-9]*` run at the start of `s`. */
  function AlnumRun(s: string): (n: nat)
    ensures n <= |s|
    ensures forall i :: 0 <= i < n ==> IsAlnum(s[i])
    ensures n < |s| ==> !IsAlnum(s[n])
  {
    if s != [] && IsAlnum(s[0]) then 1 + AlnumRun(s[1..]) else 0
  }

  /** The length of the name when `p` starts with a `{name}` placeholder
      (a `{`, a non-empty alphanumeric run and a `}`), otherwise 0. */
  function PlaceholderLen(p: string): (n: nat)
    ensures n > 0 ==> 2 + n <= |p| && p[0] == '{' && p[1 + n] == '}'
    ensures n > 0 ==> forall i :: 1 <= i <= n ==> IsAlnum(p[i])
  {
    if p != [] && p[0] == '{' && 0 < AlnumRun(p[1..]) && 1 + AlnumRun(p[1..]) < |p| && p[1 + AlnumRun(p[1..])] == '}' then
      AlnumRun(p[1..])
    else 0
  }

  /** The `preg_replace` of `\{([a-zA-Z0-9]+)\}` by a named group of class
      `k` (after every `/` has been escaped, so `/` stays literal): scanning
      left to right, each placeholder becomes a group and every other
      character is literal. */
  function Needle(p: string, k: Class): (toks: seq<Tok>)
    ensures forall i :: 0 <= i < |toks| && toks[i].Cap? ==>
              toks[i].cls == k && toks[i].name != [] && AllIn(Alnum, toks[i].name)
    decreases |p|
  {
    if p == [] then []
    else
      var n := PlaceholderLen(p);
      if n > 0 then
        assert AllIn(Alnum, p[1..1 + n]);
        [Cap(p[1..1 + n], k)] + Needle(p[2 + n..], k)
      else
        [Lit(p[0])] + Needle(p[1..], k)
  }

  /** Template text of a needle: each placeholder written back as `{name}`. */
  function Unneedle(toks: seq<Tok>): string {
    if toks == [] then []
    else (match toks[0] case Lit(c) => [c] case Cap(n, _) => "{" + n + "}") + Unneedle(toks[1..])
  }

  /** Compiling a template loses nothing of it. */
  lemma {:induction false} NeedleRoundTrip(p: string, k: Class)
    ensures Unneedle(Needle(p, k)) == p
    decreases |p|
  {
    if p != [] {
      var n := PlaceholderLen(p);
      if n > 0 {
        var rest := Needle(p[2 + n..], k);
        NeedleRoundTrip(p[2 + n..], k);
        assert Needle(p, k) == [Cap(p[1..1 + n], k)] + rest;
        UnneedleCons(Cap(p[1..1 + n], k), rest);
        PlaceholderSplit(p, n);
      } else {
        var rest := Needle(p[1..], k);
        NeedleRoundTrip(p[1..], k);
        assert Needle(p, k) == [Lit(p[0])] + rest;
        UnneedleCons(Lit(p[0]), rest);
        assert p == [p[0]] + p[1..];
      }
    }
  }

  lemma UnneedleCons(t: Tok, rest: seq<Tok>)
    ensures Unneedle([t] + rest) == (match t case Lit(c) => [c] case Cap(n, _) => "{" + n + "}") + Unneedle(rest)
  {
    assert ([t] + rest)[1..] == rest;
  }

  lemma PlaceholderSplit(p: string, n: nat)
    requires 2 + n <= |p| && p[0] == '{' && p[1 + n] == '}'
    ensures p == "{" + p[1..1 + n] + "}" + p[2 + n..]
  {
  }

  /** The token lists `Needle` produces for class `k`: every group has a
      non-empty alphanumeric name and class `k`, and no literal `{` starts
      a `{name}` placeholder in the text the list stands for (had it done
      so, the placeholder would have become a group). */
  predicate NeedleCanonical(toks: seq<Tok>, k: Class) {
    && (forall i :: 0 <= i < |toks| && toks[i].Cap? ==>
          toks[i].cls == k && toks[i].name != [] && AllIn(Alnum, toks[i].name))
    && (forall i :: 0 <= i < |toks| && toks[i] == Lit('{') ==> PlaceholderLen(Unneedle(toks[i..])) == 0)
  }

  /** What `Needle` produces is canonical. */
  lemma {:induction false} NeedleIsCanonical(p: string, k: Class)
    ensures NeedleCanonical(Needle(p, k), k)
    decreases |p|
  {
    if p != [] {
      var n := PlaceholderLen(p);
      if n > 0 {
        NeedleIsCanonical(p[2 + n..], k);
        NeedleCanonicalCons(Cap(p[1..1 + n], k), Needle(p[2 + n..], k), k);
      } else {
        NeedleIsCanonical(p[1..], k);
        var toks := Needle(p, k);
        NeedleRoundTrip(p, k);
        assert toks[0..] == toks;
        NeedleCanonicalCons(Lit(p[0]), Needle(p[1..], k), k);
      }
    }
  }

  lemma NeedleCanonicalCons(x: Tok, rest: seq<Tok>, k: Class)
    requires NeedleCanonical(rest, k)
    requires x.Cap? ==> x.cls == k && x.name != [] && AllIn(Alnum, x.name)
    requires x == Lit('{') ==> PlaceholderLen(Unneedle([x] + rest)) == 0
    ensures NeedleCanonical([x] + rest, k)
  {
    var toks := [x] + rest;
    assert toks[0..] == toks;
    forall i | 0 < i < |toks| ensures toks[i] == rest[i - 1] && toks[i..] == rest[i - 1..] { }
  }

  /** Conversely, a canonical list is what its own text compiles to:
      `Needle` is the only way to arrive at it. */
  lemma {:induction false} NeedleUnique(p: string, toks: seq<Tok>, k: Class)
    requires NeedleCanonical(toks, k) && Unneedle(toks) == p
    ensures Needle(p, k) == toks
    decreases |toks|
  {
    if toks != [] {
      NeedleCanonicalRest(toks, k);
      NeedleUnique(Unneedle(toks[1..]), toks[1..], k);
      if toks[0].Lit? {
        NeedleUniqueLit(p, toks, k);
      } else {
        NeedleUniqueCap(p, toks, k);
      }
    }
  }

  /** The literal step of `NeedleUnique`. */
  lemma NeedleUniqueLit(p: string, toks: seq<Tok>, k: Class)
    requires toks != [] && toks[0].Lit? && NeedleCanonical(toks, k) && Unneedle(toks) == p
    requires Needle(Unneedle(toks[1..]), k) == toks[1..]
    ensures Needle(p, k) == toks
  {
    var d := Unneedle(toks[1..]);
    UnneedleCons(toks[0], toks[1..]);
    assert toks == [toks[0]] + toks[1..];
    assert p == [toks[0].c] + d;
    if toks[0].c == '{' {
      assert toks[0..] == toks;
    }
    assert PlaceholderLen(p) == 0;
    assert p[1..] == d;
  }

  /** The placeholder step of `NeedleUnique`. */
  lemma NeedleUniqueCap(p: string, toks: seq<Tok>, k: Class)
    requires toks != [] && toks[0].Cap? && NeedleCanonical(toks, k) && Unneedle(toks) == p
    requires Needle(Unneedle(toks[1..]), k) == toks[1..]
    ensures Needle(p, k) == toks
  {
    var n := toks[0].name;
    var d := Unneedle(toks[1..]);
    UnneedleCons(toks[0], toks[1..]);
    assert toks == [Cap(n, k)] + toks[1..];
    assert p == "{" + n + "}" + d;
    PlaceholderOf(n, d);
  }

  lemma NeedleCanonicalRest(toks: seq<Tok>, k: Class)
    requires toks != [] && NeedleCanonical(toks, k)
    ensures NeedleCanonical(toks[1..], k)
  {
    var rest := toks[1..];
    forall i | 0 <= i < |rest| ensures rest[i] == toks[i + 1] && rest[i..] == toks[i + 1..] { }
  }

  /** `{name}` followed by anything starts with that one placeholder. */
  lemma PlaceholderOf(n: string, d: string)
    requires n != [] && AllIn(Alnum, n)
    ensures var p := "{" + n + "}" + d;
            && PlaceholderLen(p) == |n| && p[1..1 + |n|] == n && p[2 + |n|..] == d
  {
    var p := "{" + n + "}" + d;
    AlnumRunPrefix(n, "}" + d);
    assert p[1..] == n + ("}" + d);
  }

  lemma {:induction false} AlnumRunPrefix(n: string, d: string)
    requires AllIn(Alnum, n) && d != [] && !IsAlnum(d[0])
    ensures AlnumRun(n + d) == |n|
    decreases |n|
  {
    if n != [] {
      assert (n + d)[1..] == n[1..] + d;
      AlnumRunPrefix(n[1..], d);
    } else {
      assert n + d == d;
    }
  }

  /** PCRE refuses a group name that starts with a digit and a name used
      twice; `preg_match` then reports no match. */
  predicate NeedleCompiles(toks: seq<Tok>) {
    DistinctNames(toks) &&
    forall i :: 0 <= i < |toks| && toks[i].Cap? ==> toks[i].name != [] && !IsDigit(toks[i].name[0])
  }

  /** `preg_match($needle, $uri)` on the raw request URI. */
  function NeedleRun(toks: seq<Tok>, uri: string): Option<Captures> {
    if NeedleCompiles(toks) then Search(toks, Anchored, uri) else None
  }

  /** `$base . '/' . trim($path, '/')`. */
  function Join(base: string, path: string): (p: string)
    ensures p == base + "/" + Trim(path, '/')
    ensures |p| > |base| && p[|base|] == '/'
    ensures |p| == |base| + 1 || p[|p| - 1] != '/'
  {
    base + "/" + Trim(path, '/')
  }

  /** What one trailing placeholder accepts: on a directly registered
      route (`Alnum`) one or more alphanumerics, on an adopted route (`.*`)
      any single line, empty or containing slashes. The value is captured
      whole. */
  lemma PlaceholderValues(t: string, n: string, k: Class, v: string)
    requires k == Alnum || k == Any
    requires Free(t, '{') && n != [] && AllIn(Alnum, n) && !IsDigit(n[0]) && Free(v, '\n')
    ensures NeedleRun(Needle(t + "{" + n + "}", k), t + v) ==
            if AllIn(k, v) && |v| >= MinLen(k) then Some(map[n := v]) else None
  {
    NeedleLiteralThen(t, n, k);
    var toks := Lits(t) + [Cap(n, k)];
    assert NeedleCompiles(toks) by {
      forall i | 0 <= i < |toks| && toks[i].Cap? ensures i == |t| {
      }
    }
    SearchAfterLits(t, [Cap(n, k)], Anchored, v);
    LastCapture(n, k, v);
  }

  lemma {:induction false} NeedleLiteralThen(t: string, n: string, k: Class)
    requires Free(t, '{') && n != [] && AllIn(Alnum, n)
    ensures Needle(t + "{" + n + "}", k) == Lits(t) + [Cap(n, k)]
    decreases |t|
  {
    var p := t + "{" + n + "}";
    if t == [] {
      assert p == "{" + n + "}";
      AlnumRunPrefix(n, "}");
      assert p[1..] == n + "}";
      assert PlaceholderLen(p) == |n|;
      assert p[1..1 + |n|] == n && p[2 + |n|..] == [];
    } else {
      assert p[0] == t[0] && p[1..] == t[1..] + "{" + n + "}";
      NeedleLiteralThen(t[1..], n, k);
      assert Lits(t) == [Lit(t[0])] + Lits(t[1..]);
    }
  }

  /** Literal tokens consume their own text and leave the rest of the
      subject to the tokens after them. */
  lemma {:induction false} SearchAfterLits(t: string, rest: seq<Tok>, tail: Tail, v: string)
    ensures Search(Lits(t) + rest, tail, t + v) == Search(rest, tail, v)
    decreases |t|
  {
    if t == [] {
      assert Lits(t) + rest == rest && t + v == v;
    } else {
      assert Lits(t) + rest == [Lit(t[0])] + (Lits(t[1..]) + rest);
      assert (t + v)[0] == t[0] && (t + v)[1..] == t[1..] + v;
      SearchAfterLits(t[1..], rest, tail, v);
    }
  }

  /** A final greedy group on a single-line subject takes all of it or
      fails. */
  lemma LastCapture(n: string, k: Class, v: string)
    requires Free(v, '\n')
    ensures Search([Cap(n, k)], Anchored, v) ==
            if AllIn(k, v) && |v| >= MinLen(k) then Some(map[n := v]) else None
  {
    var r := RunLen(k, v);
    assert [Cap(n, k)][1..] == [];
    AllInIffShort(k, v, |v|);
    assert v[..|v|] == v;
    if r == |v| {
      if |v| >= MinLen(k) {
        assert v[|v|..] == [];
        assert Search([], Anchored, v[|v|..]) == Some(map[]);
        assert TryLengths(n, k, [], Anchored, v, |v|) == Some(map[][n := v[..|v|]]);
        assert map[][n := v] == map[n := v];
      }
    } else {
      NoEarlyEnd(n, k, v, r);
    }
  }

  /** Stopping short of the end of a single-line subject never satisfies
      `$`. */
  lemma {:induction false} NoEarlyEnd(n: string, k: Class, v: string, j: nat)
    requires Free(v, '\n') && j < |v|
    ensures TryLengths(n, k, [], Anchored, v, j) == None
    decreases j
  {
    assert v[j..][0] == v[j];
    if j > 0 {
      NoEarlyEnd(n, k, v, j - 1);
    }
  }

  // ---------------------------------------------------------------------
  // Configuration
  // ---------------------------------------------------------------------

  /** What `base` returns: the base path (getter) or the updated router. */
  datatype BaseResult = BasePath(path: string) | Updated(router: Router)

  /** `base($base)`: a null or empty argument reads the base path; anything
      else stores it without its trailing slashes. */
  function Base(rt: Router, b: Option<string>): (res: BaseResult)
    ensures res.BasePath? <==> b.None? || b.value == ""
    ensures res.BasePath? ==> res.path == rt.basePath
    ensures res.Updated? ==> res.router.routes == rt.routes
    ensures res.Updated? ==> |res.router.basePath| <= |b.value| && res.router.basePath == b.value[..|res.router.basePath|]
    ensures res.Updated? ==> forall i :: |res.router.basePath| <= i < |b.value| ==> b.value[i] == '/'
    ensures res.Updated? ==> res.router.basePath == [] || res.router.basePath[|res.router.basePath| - 1] != '/'
  {
    if b.None? || b.value == "" then BasePath(rt.basePath)
    else
      Updated(rt.(basePath := DropTrailing(b.value, '/')))
  }

  /** Setting a base path and reading it back gives the argument without
      its trailing slashes; a base of only slashes reads back empty. */
  lemma BaseRoundTrip(rt: Router, b: string)
    requires b != ""
    ensures Base(rt, Some(b)).Updated?
    ensures Base(Base(rt, Some(b)).router, None) == BasePath(DropTrailing(b, '/'))
    ensures Free(b, '/') ==> Base(Base(rt, Some(b)).router, None) == BasePath(b)
  {
    if Free(b, '/') {
      assert b[|b| - 1] != '/';
    }
  }

  /** `request($method, $path, ...$pipes)`: appends one entry whose path is
      the base joined with the slash-trimmed path, whose needle takes only
      alphanumeric placeholder values, and whose verb is upper-cased. */
  function Register(rt: Router, verb: string, path: string, pipes: seq<PipeRef>): (rt': Router)
    ensures rt'.basePath == rt.basePath
    ensures |rt'.routes| == |rt.routes| + 1 && rt'.routes[..|rt.routes|] == rt.routes
    ensures var e := rt'.routes[|rt.routes|];
            e.path == Join(rt.basePath, path) && e.needle == Needle(e.path, Alnum) &&
            e.verb == Upper(verb) && e.pipes == pipes
  {
    var p := Join(rt.basePath, path);
    rt.(routes := rt.routes + [Entry(p, Needle(p, Alnum), Upper(verb), pipes)])
  }

  /** `get($path, ...$pipes)`. */
  function Get(rt: Router, path: string, pipes: seq<PipeRef>): (rt': Router)
    ensures rt'.basePath == rt.basePath
    ensures |rt'.routes| == |rt.routes| + 1 && rt'.routes[..|rt.routes|] == rt.routes
    ensures var e := rt'.routes[|rt.routes|];
            e.path == Join(rt.basePath, path) && e.needle == Needle(e.path, Alnum) &&
            e.verb == "GET" && e.pipes == pipes
  {
    UpperFixes("GET");
    Register(rt, "GET", path, pipes)
  }

  /** `post($path, ...$pipes)`. */
  function Post(rt: Router, path: string, pipes: seq<PipeRef>): (rt': Router)
    ensures rt'.basePath == rt.basePath
    ensures |rt'.routes| == |rt.routes| + 1 && rt'.routes[..|rt.routes|] == rt.routes
    ensures var e := rt'.routes[|rt.routes|];
            e.path == Join(rt.basePath, path) && e.needle == Needle(e.path, Alnum) &&
            e.verb == "POST" && e.pipes == pipes
  {
    UpperFixes("POST");
    Register(rt, "POST", path, pipes)
  }

  /** One adopted entry: its path re-joined under `base` and its needle
      recompiled with `.*` placeholders; verb and pipes are kept. */
  function AdoptOne(base: string, e: Entry): (e': Entry)
    ensures e'.path == Join(base, e.path) && e'.needle == Needle(e'.path, Any)
    ensures e'.verb == e.verb && e'.pipes == e.pipes
  {
    var p := Join(base, e.path);
    e.(path := p, needle := Needle(p, Any))
  }

  function Adopt(base: string, es: seq<Entry>): (out: seq<Entry>)
    ensures |out| == |es|
    ensures forall k :: 0 <= k < |es| ==> out[k] == AdoptOne(base, es[k])
  {
    if es == [] then [] else [AdoptOne(base, es[0])] + Adopt(base, es[1..])
  }

  /** `add($router)`: the child's routes, adopted, after this router's own. */
  function Add(rt: Router, child: Router): (rt': Router)
    ensures rt'.basePath == rt.basePath
    ensures |rt'.routes| == |rt.routes| + |child.routes|
    ensures rt'.routes[..|rt.routes|] == rt.routes
    ensures forall k :: 0 <= k < |child.routes| ==>
              rt'.routes[|rt.routes| + k] == AdoptOne(rt.basePath, child.routes[k])
  {
    rt.(routes := rt.routes + Adopt(rt.basePath, child.routes))
  }

  /** Mounting a child router that has no base of its own under base `b`
      gives each route the path it would have had if registered on a
      router with base `b` directly. */
  lemma MountedPath(b: string, path: string)
    ensures Join(b, Join("", path)) == Join(b, path)
  {
    var t := Trim(path, '/');
    SlashThenTrimmed(t);
    assert Join("", path) == "/" + t;
  }

  /** Trimming slashes off `/` followed by an already trimmed string. */
  lemma SlashThenTrimmed(t: string)
    requires t == [] || (t[0] != '/' && t[|t| - 1] != '/')
    ensures Trim("/" + t, '/') == t
  {
    var s := "/" + t;
    assert s[1..] == t;
    assert DropLeading(s, '/') == DropLeading(t, '/');
    assert DropLeading(t, '/') == t;
  }

  // ---------------------------------------------------------------------
  // Dispatch
  // ---------------------------------------------------------------------

  /** Whether an entry serves a request: the verb is the request's verb,
      compared as it comes, and the needle matches the raw URI. */
  predicate Hit(e: Entry, req: Request) {
    e.verb == req.verb && NeedleRun(e.needle, req.uri).Some?
  }

  /** The index of the first entry that serves `req`. */
  function FirstHit(routes: seq<Entry>, req: Request): (i: Option<nat>)
    ensures i.Some? ==> i.value < |routes| && Hit(routes[i.value], req)
    ensures i.Some? ==> forall j :: 0 <= j < i.value ==> !Hit(routes[j], req)
    ensures i.None? ==> forall j :: 0 <= j < |routes| ==> !Hit(routes[j], req)
  {
    if routes == [] then None
    else if Hit(routes[0], req) then Some(0)
    else
      match FirstHit(routes[1..], req)
      case None => None
      case Some(i) => Some(i + 1)
  }

  /** `extract_params`: every named capture, URL-decoded. Numbered groups
      (the numeric keys) are dropped. */
  function ExtractParams(c: Captures): (v: Value)
    ensures v.Dict? && v.entries.Keys == c.Keys
    ensures forall k :: k in c ==> v.entries[k] == Str(UrlDecode(c[k]))
  {
    Dict(map k | k in c :: Str(UrlDecode(c[k])))
  }

  /** What a later pipe receives: its predecessor's result, or the route
      parameters when that result is null. */
  function Feed(res: Value, params: Value): (v: Value)
    ensures res == Null ==> v == params
    ensures res != Null ==> v == res
  {
    if res == Null then params else res
  }

  /** The pipe chain from its first remaining pipe on: a throw ends it, and
      the last pipe's result is returned as is, null included. */
  function Chain(pipes: seq<PipeRef>, arg: Value, params: Value, invoke: Invoker): Outcome
    requires |pipes| > 0
    decreases |pipes|
  {
    var o := invoke(pipes[0], arg);
    if |pipes| == 1 || o.Threw? then o
    else Chain(pipes[1..], Feed(o.value, params), params, invoke)
  }

  /** Extending a chain by one pipe: the new pipe receives what the old
      chain produced (or the parameters in place of null), unless the old
      chain threw. */
  lemma {:induction false} ChainSnoc(pipes: seq<PipeRef>, q: PipeRef, arg: Value, params: Value, invoke: Invoker)
    requires |pipes| > 0
    ensures Chain(pipes + [q], arg, params, invoke) ==
            match Chain(pipes, arg, params, invoke)
            case Threw(e) => Threw(e)
            case Returned(v) => invoke(q, Feed(v, params))
    decreases |pipes|
  {
    var o := invoke(pipes[0], arg);
    assert (pipes + [q])[0] == pipes[0];
    if |pipes| == 1 {
      assert (pipes + [q])[1..] == [q];
    } else if o.Returned? {
      assert (pipes + [q])[1..] == pipes[1..] + [q];
      ChainSnoc(pipes[1..], q, Feed(o.value, params), params, invoke);
    }
  }

  /** The pipe loop as the source writes it: the first pipe on the
      parameters, then each later pipe on the wrapped previous result. */
  method RunPipes(pipes: seq<PipeRef>, params: Value, invoke: Invoker) returns (o: Outcome)
    requires |pipes| > 0
    ensures o == Chain(pipes, params, params, invoke)
  {
    o := invoke(pipes[0], params);
    if |pipes| == 1 || o.Threw? {
      return;
    }
    var arg := Feed(o.value, params);
    var i := 1;
    while i < |pipes|
      invariant 1 <= i < |pipes|
      invariant Chain(pipes[i..], arg, params, invoke) == Chain(pipes, params, params, invoke)
      decreases |pipes| - i
    {
      o := invoke(pipes[i], arg);
      assert pipes[i..][0] == pipes[i];
      if i == |pipes| - 1 || o.Threw? {
        return;
      }
      assert pipes[i..][1..] == pipes[i + 1..];
      arg := Feed(o.value, params);
      i := i + 1;
    }
  }

  /** `exec()`: the first serving route runs its pipes on its parameters; a
      route without pipes is a 500 error and no serving route a 404. */
  function Dispatch(rt: Router, req: Request, invoke: Invoker): Outcome {
    match FirstHit(rt.routes, req)
    case None => Threw(Thrown(404, "Route not found"))
    case Some(i) =>
      var e := rt.routes[i];
      if |e.pipes| == 0 then Threw(Thrown(500, "Route has no handler"))
      else
        var params := ExtractParams(NeedleRun(e.needle, req.uri).value);
        Chain(e.pipes, params, params, invoke)
  }

  /** With no serving route the router raises its 404. */
  lemma NotFound(rt: Router, req: Request, invoke: Invoker)
    requires forall j :: 0 <= j < |rt.routes| ==> !Hit(rt.routes[j], req)
    ensures Dispatch(rt, req, invoke) == Threw(Thrown(404, "Route not found"))
  {
  }

  /** The first serving route decides: it raises the 500 when it has no
      pipes, and otherwise its chain runs on its URL-decoded captures. */
  lemma FirstServingRouteWins(rt: Router, req: Request, invoke: Invoker, i: nat)
    requires i < |rt.routes| && Hit(rt.routes[i], req)
    requires forall j :: 0 <= j < i ==> !Hit(rt.routes[j], req)
    ensures |rt.routes[i].pipes| == 0 ==> Dispatch(rt, req, invoke) == Threw(Thrown(500, "Route has no handler"))
    ensures |rt.routes[i].pipes| > 0 ==>
              var params := ExtractParams(NeedleRun(rt.routes[i].needle, req.uri).value);
              Dispatch(rt, req, invoke) == Chain(rt.routes[i].pipes, params, params, invoke)
  {
    FirstHitUnique(rt.routes, req, i);
  }

  /** The first serving index is unique. */
  lemma FirstHitUnique(routes: seq<Entry>, req: Request, i: nat)
    requires i < |routes| && Hit(routes[i], req)
    requires forall j :: 0 <= j < i ==> !Hit(routes[j], req)
    ensures FirstHit(routes, req) == Some(i)
  {
  }

  /** Routes registered later never shadow a route that already serves the
      request: first match wins. */
  lemma LaterRoutesShadowed(rt: Router, more: seq<Entry>, req: Request, invoke: Invoker)
    requires exists j :: 0 <= j < |rt.routes| && Hit(rt.routes[j], req)
    ensures Dispatch(rt.(routes := rt.routes + more), req, invoke) == Dispatch(rt, req, invoke)
  {
    var i := FirstHit(rt.routes, req).value;
    var all := rt.routes + more;
    assert all[i] == rt.routes[i];
    assert forall j :: 0 <= j < i ==> all[j] == rt.routes[j];
    FirstHitUnique(all, req, i);
  }

  /** Entries that do not serve the request can be ignored: putting them
      in front changes nothing. */
  lemma MissesIgnored(pre: seq<Entry>, rt: Router, req: Request, invoke: Invoker)
    requires forall j :: 0 <= j < |pre| ==> !Hit(pre[j], req)
    ensures Dispatch(rt.(routes := pre + rt.routes), req, invoke) == Dispatch(rt, req, invoke)
  {
    var all := pre + rt.routes;
    match FirstHit(rt.routes, req)
    case None =>
      forall j | 0 <= j < |all| ensures !Hit(all[j], req) {
        if j >= |pre| { assert all[j] == rt.routes[j - |pre|]; }
      }
    case Some(i) =>
      assert all[|pre| + i] == rt.routes[i];
      forall j | 0 <= j < |pre| + i ensures !Hit(all[j], req) {
        if j >= |pre| { assert all[j] == rt.routes[j - |pre|]; }
      }
      FirstHitUnique(all, req, |pre| + i);
  }

  // ---------------------------------------------------------------------
  // URL decoding
  // ---------------------------------------------------------------------

  predicate IsHex(c: char) {
    IsDigit(c) || ('a' <= c <= 'f') || ('A' <= c <= 'F')
  }

  function HexVal(c: char): (d: nat)
    requires IsHex(c)
    ensures d < 16
  {
    if IsDigit(c) then c as int - '0' as int
    else if 'a' <= c <= 'f' then c as int - 'a' as int + 10
    else c as int - 'A' as int + 10
  }

  /** PHP's `urldecode` on a byte string: `+` is a space, `%` and two hex
      digits is that byte, and anything else (a stray `%` included) stays. */
  function UrlDecode(s: string): (r: string)
    ensures |r| <= |s|
    decreases |s|
  {
    if s == [] then []
    else if s[0] == '+' then " " + UrlDecode(s[1..])
    else if s[0] == '%' && |s| >= 3 && IsHex(s[1]) && IsHex(s[2]) then
      [(16 * HexVal(s[1]) + HexVal(s[2])) as char] + UrlDecode(s[3..])
    else [s[0]] + UrlDecode(s[1..])
  }

  /** A string without `+` and `%` decodes to itself; in particular the
      alphanumeric captures of a directly registered route arrive as
      matched. */
  lemma {:induction false} UrlDecodePlain(s: string)
    requires Free(s, '+') && Free(s, '%')
    ensures UrlDecode(s) == s
    decreases |s|
  {
    if s != [] {
      UrlDecodePlain(s[1..]);
    }
  }

  /** Byte strings, the domain of PHP's URL coding. */
  predicate IsBytes(s: string) {
    forall i :: 0 <= i < |s| ==> s[i] as int < 256
  }

  function HexDigit(d: nat): (c: char)
    requires d < 16
    ensures IsHex(c) && HexVal(c) == d
  {
    if d < 10 then (d + '0' as int) as char else (d - 10 + 'A' as int) as char
  }

  /** PHP's `urlencode`, the inverse `UrlDecode` undoes. */
  function UrlEncode(s: string): (r: string)
    requires IsBytes(s)
    ensures |r| >= |s|
  {
    if s == [] then []
    else
      var c := s[0];
      (if IsAlnum(c) || c == '-' || c == '_' || c == '.' then [c]
       else if c == ' ' then "+"
       else ['%', HexDigit(c as int / 16), HexDigit(c as int % 16)]) + UrlEncode(s[1..])
  }

  /** Decoding undoes encoding on every byte string. */
  lemma {:induction false} UrlRoundTrip(s: string)
    requires IsBytes(s)
    ensures UrlDecode(UrlEncode(s)) == s
    decreases |s|
  {
    if s != [] {
      var c := s[0];
      var rest := UrlEncode(s[1..]);
      UrlRoundTrip(s[1..]);
      if IsAlnum(c) || c == '-' || c == '_' || c == '.' {
        assert UrlEncode(s) == [c] + rest;
        assert ([c] + rest)[1..] == rest;
      } else if c == ' ' {
        assert UrlEncode(s) == "+" + rest;
        assert ("+" + rest)[1..] == rest;
      } else {
        var e := ['%', HexDigit(c as int / 16), HexDigit(c as int % 16)];
        assert UrlEncode(s) == e + rest;
        assert (e + rest)[3..] == rest;
        assert (16 * HexVal(e[1]) + HexVal(e[2])) as char == c;
      }
    }
  }
}

=== FILE: text.dfy ===
/** Character and string helpers standing in for the PHP string functions
    the router relies on: `trim`, `rtrim`, `strtoupper` and the character
    classes used in its regular expressions. Strings are `seq<char>`. */
module Text {

  datatype Option<+T> = None | Some(value: T)

  predicate IsLetter(c: char) {
    ('a' <= c <= 'z') || ('A' <= c <= 'Z')
  }

  predicate IsDigit(c: char) {
    '0' <= c <= '9'
  }

  /** `[a-zA-Z0-9]` */
  predicate IsAlnum(c: char) {
    IsLetter(c) || IsDigit(c)
  }

  /** `[a-zA-Z0-9_]` */
  predicate IsWordChar(c: char) {
    IsAlnum(c) || c == '_'
  }

  /** True when `c` occurs nowhere in `s`. */
  predicate Free(s: string, c: char) {
    forall i :: 0 <= i < |s| ==> s[i] != c
  }

  /** Removes every leading `c` (the left half of PHP's `trim($s, $c)`). */
  function DropLeading(s: string, c: char): (r: string)
    ensures |r| <= |s| && r == s[|s| - |r|..]
    ensures r == [] || r[0] != c
    ensures forall i :: 0 <= i < |s| - |r| ==> s[i] == c
  {
    if s != [] && s[0] == c then DropLeading(s[1..], c) else s
  }

  /** Removes every trailing `c` (PHP's `rtrim($s, $c)`). */
  function DropTrailing(s: string, c: char): (r: string)
    ensures |r| <= |s| && r == s[..|r|]
    ensures r == [] || r[|r| - 1] != c
    ensures forall i :: |r| <= i < |s| ==> s[i] == c
  {
    if s != [] && s[|s| - 1] == c then DropTrailing(s[..|s| - 1], c) else s
  }

  /** `n` copies of `c`. */
  function Rep(c: char, n: nat): (r: string)
    ensures |r| == n && forall i :: 0 <= i < n ==> r[i] == c
  {
    if n == 0 then [] else [c] + Rep(c, n - 1)
  }

  /** PHP's `trim($s, $c)` for a one-character list. */
  function Trim(s: string, c: char): (r: string)
    ensures r == [] || (r[0] != c && r[|r| - 1] != c)
    ensures |r| <= |s|
    ensures forall d :: Free(s, d) ==> Free(r, d)
  {
    var l := DropLeading(s, c);
    var r := DropTrailing(l, c);
    TrimSplit(s, c, l, r);
    r
  }

  /** `s` is its trim with runs of `c` around it; as the trim has no `c`
      at either end, those runs are the longest ones, so this pins the
      result down. */
  lemma TrimKeepsMiddle(s: string, c: char)
    ensures exists a: nat, b: nat :: s == Rep(c, a) + Trim(s, c) + Rep(c, b)
  {
    var l := DropLeading(s, c);
    var r := DropTrailing(l, c);
    TrimSplit(s, c, l, r);
    assert s == Rep(c, |s| - |l|) + Trim(s, c) + Rep(c, |l| - |r|);
  }

  /** Cutting a run of `c` off each end of `s` leaves `r` in between. */
  lemma TrimSplit(s: string, c: char, l: string, r: string)
    requires |l| <= |s| && l == s[|s| - |l|..] && forall i :: 0 <= i < |s| - |l| ==> s[i] == c
    requires |r| <= |l| && r == l[..|r|] && forall i :: |r| <= i < |l| ==> l[i] == c
    ensures s == Rep(c, |s| - |l|) + r + Rep(c, |l| - |r|)
    ensures forall d :: Free(s, d) ==> Free(r, d)
  {
    forall d | Free(s, d) ensures Free(r, d) {
      forall i | 0 <= i < |r| ensures r[i] != d {
        assert r[i] == l[i] == s[|s| - |l| + i];
      }
    }
    var a := Rep(c, |s| - |l|);
    var b := Rep(c, |l| - |r|);
    assert l == r + b by {
      forall i | 0 <= i < |l| ensures l[i] == (r + b)[i] {
        if i >= |r| { assert l[i] == c == b[i - |r|]; }
      }
    }
    assert s == a + l by {
      forall i | 0 <= i < |s| ensures s[i] == (a + l)[i] {
        if i < |a| { assert s[i] == c == a[i]; }
      }
    }
  }

  /** A string with no `c` at either end is its own trim. */
  lemma TrimUnchanged(s: string, c: char)
    requires s == [] || (s[0] != c && s[|s| - 1] != c)
    ensures Trim(s, c) == s
  {
  }

  /** Trimming twice is trimming once. */
  lemma TrimIdempotent(s: string, c: char)
    ensures Trim(Trim(s, c), c) == Trim(s, c)
  {
    TrimUnchanged(Trim(s, c), c);
  }

  /** The characters PHP's one-argument `trim` strips: space, tab, line
      feed, carriage return, NUL and vertical tab. */
  predicate IsPhpSpace(c: char) {
    c == ' ' || c == '\t' || c == '\n' || c == '\r' || c == '\0' || c == '\U{0B}'
  }

  /** Only characters `trim` strips. */
  predicate AllSpace(s: string) {
    forall i :: 0 <= i < |s| ==> IsPhpSpace(s[i])
  }

  function DropLeadingSpace(s: string): (r: string)
    ensures |r| <= |s| && r == s[|s| - |r|..]
    ensures r == [] || !IsPhpSpace(r[0])
    ensures AllSpace(s[..|s| - |r|])
  {
    if s != [] && IsPhpSpace(s[0]) then
      var r := DropLeadingSpace(s[1..]);
      assert s[..|s| - |r|] == [s[0]] + s[1..][..|s| - 1 - |r|];
      r
    else s
  }

  function DropTrailingSpace(s: string): (r: string)
    ensures |r| <= |s| && r == s[..|r|]
    ensures r == [] || !IsPhpSpace(r[|r| - 1])
    ensures AllSpace(s[|r|..])
  {
    if s != [] && IsPhpSpace(s[|s| - 1]) then
      var r := DropTrailingSpace(s[..|s| - 1]);
      assert s[|r|..] == s[..|s| - 1][|r|..] + [s[|s| - 1]];
      r
    else s
  }

  /** PHP's one-argument `trim`: `s` is the result with blanks around it,
      and the result has no blank at either end. */
  function TrimSpace(s: string): (r: string)
    ensures r == [] || (!IsPhpSpace(r[0]) && !IsPhpSpace(r[|r| - 1]))
    ensures exists a, b :: s == a + r + b && AllSpace(a) && AllSpace(b)
    ensures |r| <= |DropLeadingSpace(s)| <= |s| && r == s[|s| - |DropLeadingSpace(s)|..][..|r|]
  {
    var l := DropLeadingSpace(s);
    var r := DropTrailingSpace(l);
    CutBothEnds(s, l, r);
    r
  }

  /** Cutting a prefix and then a suffix off `s` leaves `r` in between. */
  lemma CutBothEnds(s: string, l: string, r: string)
    requires |l| <= |s| && l == s[|s| - |l|..]
    requires |r| <= |l| && r == l[..|r|]
    ensures s == s[..|s| - |l|] + r + l[|r|..]
    ensures r == s[|s| - |l|..][..|r|]
  {
    assert l == r + l[|r|..];
    assert s == s[..|s| - |l|] + l;
  }

  function UpperChar(c: char): (u: char)
    ensures !('a' <= u <= 'z')
    ensures !('a' <= c <= 'z') ==> u == c
  {
    if 'a' <= c <= 'z' then (c as int - 32) as char else c
  }

  /** PHP 8's `strtoupper`: ASCII letters only, other characters unchanged. */
  function Upper(s: string): (r: string)
    ensures |r| == |s|
    ensures forall i :: 0 <= i < |s| ==> r[i] == UpperChar(s[i])
  {
    if s == [] then [] else [UpperChar(s[0])] + Upper(s[1..])
  }

  /** A string without lower-case letters is its own upper-casing. */
  lemma {:induction false} UpperFixes(s: string)
    requires forall i :: 0 <= i < |s| ==> !('a' <= s[i] <= 'z')
    ensures Upper(s) == s
  {
    if s != [] {
      UpperFixes(s[1..]);
    }
  }

  /** Upper-casing is idempotent. */
  lemma UpperIdempotent(s: string)
    ensures Upper(Upper(s)) == Upper(s)
  {
  }
}

=== FILE: url.dfy ===
/** The `$name` path-template dialect of `URL`: URI sanitising, compiling a
    template to an exact or a directory-mode pattern, matching and
    parameter extraction. The request URI, which the source reads from the
    server environment when no URL is given, is an explicit argument. */
module Url {
  import opened Text
  import opened Patterns

  /** Drops everything before the first line feed (the line feed is kept). */
  function DropLine(s: string): (r: string)
    ensures |r| <= |s|
    ensures r == [] || r[0] == '\n'
    ensures Free(s, '\n') ==> r == []
  {
    if s == [] || s[0] == '\n' then s else DropLine(s[1..])
  }

  /** Replacing the regex `\?.*` by nothing: each `?` is removed together
      with the rest of its line (`.` does not cross a line feed). */
  function StripQuery(s: string): (r: string)
    ensures Free(r, '?')
    ensures |r| <= |s|
    decreases |s|
  {
    if s == [] then []
    else if s[0] == '?' then StripQuery(DropLine(s[1..]))
    else [s[0]] + StripQuery(s[1..])
  }

  lemma {:induction false} StripQueryFree(s: string)
    requires Free(s, '?')
    ensures StripQuery(s) == s
  {
    if s != [] {
      StripQueryFree(s[1..]);
    }
  }

  /** A query on the last line is cut away completely. */
  lemma {:induction false} StripQueryDropsQuery(p: string, q: string)
    requires Free(p, '?') && Free(q, '\n')
    ensures StripQuery(p + "?" + q) == p
  {
    if p == [] {
      assert p + "?" + q == "?" + q;
      assert DropLine(q) == [];
    } else {
      assert (p + "?" + q)[1..] == p[1..] + "?" + q;
      StripQueryDropsQuery(p[1..], q);
    }
  }

  /** Only the query's own line goes: from the first line feed on the
      text is kept, and any later `?` is stripped in turn. */
  lemma {:induction false} StripQueryLineFeed(p: string, q: string, r: string)
    requires Free(p, '?') && Free(q, '\n')
    ensures StripQuery(p + "?" + q + "\n" + r) == p + "\n" + StripQuery(r)
    decreases |p|
  {
    if p == [] {
      assert p + "?" + q + "\n" + r == "?" + (q + "\n" + r);
      DropLineOf(q, r);
      assert ("\n" + r)[1..] == r;
    } else {
      assert (p + "?" + q + "\n" + r)[1..] == p[1..] + "?" + q + "\n" + r;
      StripQueryLineFeed(p[1..], q, r);
    }
  }

  lemma {:induction false} DropLineOf(q: string, r: string)
    requires Free(q, '\n')
    ensures DropLine(q + "\n" + r) == "\n" + r
    decreases |q|
  {
    if q == [] {
      assert q + "\n" + r == "\n" + r;
    } else {
      assert (q + "\n" + r)[1..] == q[1..] + "\n" + r;
      DropLineOf(q[1..], r);
    }
  }

  /** `URL::sanitize_uri`: strip the query, then exactly one leading `/` and
      no trailing `/`. */
  function Sanitize(uri: string): (r: string)
    ensures r != [] && r[0] == '/'
    ensures Free(r, '?')
    ensures |r| > 1 ==> r[1] != '/' && r[|r| - 1] != '/'
  {
    "/" + Trim(StripQuery(uri), '/')
  }

  /** Sanitising keeps the query-free path between its leading and
      trailing slash runs, behind one `/`. */
  lemma SanitizeKeepsMiddle(uri: string)
    ensures exists a: nat, b: nat :: StripQuery(uri) == Rep('/', a) + Sanitize(uri)[1..] + Rep('/', b)
  {
    TrimKeepsMiddle(StripQuery(uri), '/');
    assert Sanitize(uri)[1..] == Trim(StripQuery(uri), '/');
  }

  /** The shape `Sanitize` produces. */
  predicate Sanitized(p: string) {
    p != [] && p[0] == '/' && Free(p, '?') && (|p| > 1 ==> p[1] != '/' && p[|p| - 1] != '/')
  }

  /** A sanitized URI is a fixed point. */
  lemma SanitizeFixes(p: string)
    requires Sanitized(p)
    ensures Sanitize(p) == p
  {
    StripQueryFree(p);
    var inner := p[1..];
    assert inner == [] || (inner[0] != '/' && inner[|inner| - 1] != '/');
    assert DropLeading(p, '/') == inner;
    TrimUnchanged(inner, '/');
    assert Trim(p, '/') == Trim(inner, '/');
  }

  /** `sanitize_uri` is idempotent. */
  lemma SanitizeIdempotent(uri: string)
    ensures Sanitize(Sanitize(uri)) == Sanitize(uri)
  {
    SanitizeFixes(Sanitize(uri));
  }

  /** A query string (on a single line) does not change the sanitized URI. */
  lemma QueryIgnored(p: string, q: string)
    requires Free(p, '?') && Free(q, '\n')
    ensures Sanitize(p + "?" + q) == Sanitize(p)
  {
    StripQueryDropsQuery(p, q);
    StripQueryFree(p);
  }

  /** Length of the `[a-zA-Z0-9_]*` run at the start of `s`. */
  function WordRun(s: string): (n: nat)
    ensures n <= |s|
    ensures forall i :: 0 <= i < n ==> IsWordChar(s[i])
    ensures n < |s| ==> !IsWordChar(s[n])
  {
    if s != [] && IsWordChar(s[0]) then 1 + WordRun(s[1..]) else 0
  }

  /** A placeholder name: `[a-zA-Z][a-zA-Z0-9_]*`. */
  predicate IsName(n: string) {
    n != [] && IsLetter(n[0]) && forall i :: 1 <= i < |n| ==> IsWordChar(n[i])
  }

  /** Two neighbouring tokens as `Tokenize` leaves them: a placeholder
      name is never followed by a literal word character (the name would
      have taken it), and a literal `$` is never followed by a literal
      letter (the two would have started a placeholder). */
  predicate Adjacent(x: Tok, y: Tok) {
    && (x.Cap? && y.Lit? ==> !IsWordChar(y.c))
    && (x == Lit('$') && y.Lit? ==> !IsLetter(y.c))
  }

  /** The token lists `Tokenize` produces: `$name` groups with well-formed
      names, every neighbouring pair `Adjacent`. */
  predicate Canonical(toks: seq<Tok>) {
    && (forall i :: 0 <= i < |toks| && toks[i].Cap? ==> toks[i].cls == Segment && IsName(toks[i].name))
    && (forall i :: 0 <= i < |toks| - 1 ==> Adjacent(toks[i], toks[i + 1]))
  }

  /** The `preg_replace` of `\$([a-zA-Z]([a-zA-Z0-9_]+)?)`: scanning left to
      right, each `$` followed by a letter starts a placeholder whose name
      runs as far as the word characters go; everything else is literal. */
  function Tokenize(t: string): (toks: seq<Tok>)
    ensures forall i :: 0 <= i < |toks| && toks[i].Cap? ==> toks[i].cls == Segment && IsName(toks[i].name)
    decreases |t|
  {
    if t == [] then []
    else if t[0] == '$' && |t| > 1 && IsLetter(t[1]) then
      var n := 1 + WordRun(t[2..]);
      [Cap(t[1..1 + n], Segment)] + Tokenize(t[1 + n..])
    else
      [Lit(t[0])] + Tokenize(t[1..])
  }

  /** What `Tokenize` produces is canonical, and it starts with the
      template's first character when that is literal. */
  lemma {:induction false} TokenizeCanonical(t: string)
    ensures Canonical(Tokenize(t))
    ensures Tokenize(t) == [] <==> t == []
    ensures Tokenize(t) != [] && Tokenize(t)[0].Lit? ==> Tokenize(t)[0].c == t[0]
    decreases |t|
  {
    if t != [] {
      if t[0] == '$' && |t| > 1 && IsLetter(t[1]) {
        var n := 1 + WordRun(t[2..]);
        var rest := Tokenize(t[1 + n..]);
        TokenizeCanonical(t[1 + n..]);
        assert 1 + n < |t| ==> t[1 + n] == t[2..][n - 1];
        CanonicalCons(Cap(t[1..1 + n], Segment), rest);
      } else {
        TokenizeCanonical(t[1..]);
        CanonicalCons(Lit(t[0]), Tokenize(t[1..]));
      }
    }
  }

  lemma CanonicalCons(x: Tok, rest: seq<Tok>)
    requires Canonical(rest)
    requires x.Cap? ==> x.cls == Segment && IsName(x.name)
    requires rest != [] ==> Adjacent(x, rest[0])
    ensures Canonical([x] + rest)
  {
    var toks := [x] + rest;
    forall i | 0 < i < |toks| ensures toks[i] == rest[i - 1] { }
  }

  /** Template text of a token list: the inverse of `Tokenize`. */
  function Detokenize(toks: seq<Tok>): string {
    if toks == [] then []
    else (match toks[0] case Lit(c) => [c] case Cap(n, _) => "$" + n) + Detokenize(toks[1..])
  }

  /** Tokenizing loses nothing of the template. */
  lemma {:induction false} TokenizeRoundTrip(t: string)
    ensures Detokenize(Tokenize(t)) == t
    decreases |t|
  {
    if t != [] {
      if t[0] == '$' && |t| > 1 && IsLetter(t[1]) {
        var n := 1 + WordRun(t[2..]);
        TokenizeRoundTrip(t[1 + n..]);
        assert t == "$" + t[1..1 + n] + t[1 + n..];
      } else {
        TokenizeRoundTrip(t[1..]);
      }
    }
  }

  /** `Canonical` and `Detokenize` pin `Tokenize` down: the only canonical
      token list spelling `t` is `Tokenize(t)`. So every `$` followed by a
      letter does become a placeholder, and each name is the longest run. */
  lemma {:induction false} TokenizeUnique(t: string, toks: seq<Tok>)
    requires Canonical(toks) && Detokenize(toks) == t
    ensures Tokenize(t) == toks
    decreases |toks|
  {
    if toks != [] {
      CanonicalRest(toks);
      TokenizeUnique(Detokenize(toks[1..]), toks[1..]);
      if toks[0].Lit? {
        UniqueLit(t, toks);
      } else {
        UniqueCap(t, toks);
      }
    }
  }

  /** The literal step of `TokenizeUnique`. */
  lemma UniqueLit(t: string, toks: seq<Tok>)
    requires toks != [] && toks[0].Lit? && Canonical(toks) && Detokenize(toks) == t
    requires Tokenize(Detokenize(toks[1..])) == toks[1..]
    ensures Tokenize(t) == toks
  {
    var c := toks[0].c;
    var d := Detokenize(toks[1..]);
    CanonicalRest(toks);
    DetokenizeHead(toks[1..]);
    assert t == [c] + d;
    if c == '$' && |t| > 1 {
      assert Adjacent(toks[0], toks[1]);
      assert t[1] == d[0];
    }
    assert t[1..] == d;
  }

  /** The placeholder step of `TokenizeUnique`. */
  lemma UniqueCap(t: string, toks: seq<Tok>)
    requires toks != [] && toks[0].Cap? && Canonical(toks) && Detokenize(toks) == t
    requires Tokenize(Detokenize(toks[1..])) == toks[1..]
    ensures Tokenize(t) == toks
  {
    var n := toks[0].name;
    var d := Detokenize(toks[1..]);
    CanonicalRest(toks);
    DetokenizeHead(toks[1..]);
    if toks[1..] != [] {
      assert Adjacent(toks[0], toks[1]);
    }
    assert t == "$" + n + d;
    TokenizeCapStep(t, n, d);
    assert toks == [Cap(n, Segment)] + toks[1..];
  }

  /** `$name` followed by a non-word character tokenizes as that one
      placeholder. */
  lemma TokenizeCapStep(t: string, n: string, d: string)
    requires IsName(n) && t == "$" + n + d
    requires d == [] || !IsWordChar(d[0])
    ensures Tokenize(t) == [Cap(n, Segment)] + Tokenize(d)
  {
    WordRunOf(n[1..], d);
    assert t[2..] == n[1..] + d;
    assert t[1..1 + |n|] == n;
    assert t[1 + |n|..] == d;
  }

  lemma CanonicalRest(toks: seq<Tok>)
    requires toks != [] && Canonical(toks)
    ensures Canonical(toks[1..])
  {
    var rest := toks[1..];
    forall i | 0 <= i < |rest| ensures rest[i] == toks[i + 1] { }
  }

  /** The first character a non-empty token list spells. */
  lemma DetokenizeHead(toks: seq<Tok>)
    requires forall i :: 0 <= i < |toks| && toks[i].Cap? ==> IsName(toks[i].name)
    ensures toks == [] <==> Detokenize(toks) == []
    ensures toks != [] ==> Detokenize(toks)[0] == (if toks[0].Lit? then toks[0].c else '$')
  {
  }

  /** A run of word characters followed by nothing or a non-word character
      is exactly the word run. */
  lemma {:induction false} WordRunOf(w: string, d: string)
    requires forall i :: 0 <= i < |w| ==> IsWordChar(w[i])
    requires d == [] || !IsWordChar(d[0])
    ensures WordRun(w + d) == |w|
    decreases |w|
  {
    if w != [] {
      assert (w + d)[1..] == w[1..] + d;
      WordRunOf(w[1..], d);
    } else {
      assert w + d == d;
    }
  }

  /** `URL::create_param_regex`: the sanitized template, fully anchored. */
  function ExactPattern(template: string): seq<Tok> {
    Tokenize(Sanitize(template))
  }

  /** The sanitized template ends in a `/` and a line feed. */
  predicate SlashBeforeLineFeed(t: string) {
    |t| >= 2 && t[|t| - 2] == '/' && t[|t| - 1] == '\n'
  }

  /** The prefix `create_dir_param_regex` anchors: the sanitized template
      with the escaped `/` that `\/$` finds removed. PCRE's `$` matches at
      the very end and just before a final line feed, so the slash goes
      when it ends the template (only the root `/`) or when it is followed
      by nothing but a final line feed; otherwise nothing changes. */
  function DirPrefix(template: string): (p: string)
    ensures var t := Sanitize(template);
            || (t == "/" && p == [])
            || (SlashBeforeLineFeed(t) && p == t[..|t| - 2] + "\n")
            || (t != "/" && !SlashBeforeLineFeed(t) && p == t)
    ensures p == [] <==> Sanitize(template) == "/"
  {
    var t := Sanitize(template);
    if t[|t| - 1] == '/' then t[..|t| - 1]
    else if SlashBeforeLineFeed(t) then t[..|t| - 2] + "\n"
    else t
  }

  /** `URL::create_dir_param_regex`: the prefix followed by the optional `file` tail. */
  function DirPattern(template: string): seq<Tok> {
    Tokenize(DirPrefix(template))
  }

  /** PCRE refuses a pattern with two groups of the same name; `preg_match`
      then reports no match. In directory mode a `$file` placeholder clashes
      with the tail's own `file` group. */
  predicate Compiles(toks: seq<Tok>, tail: Tail) {
    DistinctNames(toks) && (tail == OptionalFile ==> "file" !in Names(toks))
  }

  /** The path `matched`/`params` probe: the given URL sanitized, or the
      current request URI when the URL is PHP-`empty` (null, `""` or `"0"`). */
  function Probe(url: Option<string>, requestUri: string): (p: string)
    ensures Sanitized(p)
  {
    if url == None || url.value == "" || url.value == "0" then Sanitize(requestUri) else Sanitize(url.value)
  }

  /** Runs `preg_match` of a compiled pattern against a probe path. */
  function Run(toks: seq<Tok>, tail: Tail, path: string): Option<Captures> {
    if Compiles(toks, tail) then Search(toks, tail, path) else None
  }

  /** `URL::matched`. */
  function Matched(template: string, url: Option<string>, requestUri: string): bool {
    Run(ExactPattern(template), Anchored, Probe(url, requestUri)).Some?
  }

  /** `URL::params`: the named captures, raw (not URL-decoded); empty when
      nothing matched. */
  function Params(template: string, url: Option<string>, requestUri: string): Captures {
    Captured(Run(ExactPattern(template), Anchored, Probe(url, requestUri)))
  }

  /** The captures of a successful `preg_match`, or none. */
  function Captured(r: Option<Captures>): Captures {
    if r.Some? then r.value else map[]
  }

  /** A path that matches was matched by a pattern that compiles, so a
      caller that asks for the parameters only after a match (as `Route`
      does) never meets a pattern that fails to compile. */
  lemma MatchedCompiles(template: string, url: Option<string>, requestUri: string)
    ensures Matched(template, url, requestUri) ==> Compiles(ExactPattern(template), Anchored)
    ensures DirMatched(template, url, requestUri) ==> Compiles(DirPattern(template), OptionalFile)
  {
  }

  /** `URL::dir_matched`. */
  function DirMatched(template: string, url: Option<string>, requestUri: string): bool {
    Run(DirPattern(template), OptionalFile, Probe(url, requestUri)).Some?
  }

  /** `trim($v, '/') ?: null`: PHP treats `""` and `"0"` as false. */
  function Normalize(v: string): (r: Option<string>)
    ensures r.Some? ==> r.value == Trim(v, '/') && r.value != "" && r.value != "0"
    ensures r.None? ==> Trim(v, '/') == "" || Trim(v, '/') == "0"
  {
    var t := Trim(v, '/');
    if t == "" || t == "0" then None else Some(t)
  }

  /** The `array_map` of `dir_params` over the named captures. */
  function NormalizeAll(c: Captures): (d: map<string, Option<string>>)
    ensures d.Keys == c.Keys
    ensures forall k :: k in d ==> d[k] == Normalize(c[k])
  {
    map k | k in c :: Normalize(c[k])
  }

  /** `URL::dir_params`: every named capture slash-trimmed, falsy ones null. */
  function DirParams(template: string, url: Option<string>, requestUri: string): map<string, Option<string>> {
    var r := Run(DirPattern(template), OptionalFile, Probe(url, requestUri));
    if r.Some? then NormalizeAll(r.value) else map[]
  }

  /** Exact mode matches exactly when some choice of placeholder values
      makes the whole sanitized path match the template. */
  lemma MatchedIff(template: string, url: Option<string>, requestUri: string)
    ensures Matched(template, url, requestUri) <==>
            Compiles(ExactPattern(template), Anchored) &&
            Matches(ExactPattern(template), Anchored, Probe(url, requestUri))
  {
    var toks := ExactPattern(template);
    var p := Probe(url, requestUri);
    SearchComplete(toks, Anchored, p);
  }

  /** Directory mode matches exactly when some choice of placeholder values
      makes the prefix match the start of the sanitized path. */
  lemma DirMatchedIff(template: string, url: Option<string>, requestUri: string)
    ensures DirMatched(template, url, requestUri) <==>
            Compiles(DirPattern(template), OptionalFile) &&
            Matches(DirPattern(template), OptionalFile, Probe(url, requestUri))
  {
    var toks := DirPattern(template);
    var p := Probe(url, requestUri);
    SearchComplete(toks, OptionalFile, p);
  }

  /** On a match, `params` has exactly the placeholder names as keys, each
      value is a non-empty run without `/` or `?`, and substituting the
      values into the template gives back the probed path. */
  lemma ParamsSound(template: string, url: Option<string>, requestUri: string)
    requires Matched(template, url, requestUri)
    ensures var toks := ExactPattern(template);
            var m := Params(template, url, requestUri);
            var p := Probe(url, requestUri);
            && m.Keys == Names(toks)
            && (forall k :: k in m ==> m[k] != [] && AllIn(Segment, m[k]))
            && (p == Render(toks, m) || p == Render(toks, m) + "\n")
  {
    ExactSound(template, Probe(url, requestUri));
  }

  lemma ExactSound(template: string, p: string)
    requires Run(ExactPattern(template), Anchored, p).Some?
    ensures var toks := ExactPattern(template);
            var m := Run(toks, Anchored, p).value;
            && m.Keys == Names(toks)
            && (forall k :: k in m ==> m[k] != [] && AllIn(Segment, m[k]))
            && (p == Render(toks, m) || p == Render(toks, m) + "\n")
  {
    RunSegmentSound(ExactPattern(template), p);
  }

  lemma RunSegmentSound(toks: seq<Tok>, p: string)
    requires forall j :: 0 <= j < |toks| && toks[j].Cap? ==> toks[j].cls == Segment
    requires Run(toks, Anchored, p).Some?
    ensures var m := Run(toks, Anchored, p).value;
            && m.Keys == Names(toks)
            && (forall k :: k in m ==> m[k] != [] && AllIn(Segment, m[k]))
            && (p == Render(toks, m) || p == Render(toks, m) + "\n")
  {
    SegmentSearchSound(toks, p);
  }

  /** `SearchSound` specialised to `$name` templates: captures are non-empty. */
  lemma SegmentSearchSound(toks: seq<Tok>, p: string)
    requires DistinctNames(toks)
    requires forall j :: 0 <= j < |toks| && toks[j].Cap? ==> toks[j].cls == Segment
    requires Search(toks, Anchored, p).Some?
    ensures var m := Search(toks, Anchored, p).value;
            && m.Keys == Names(toks)
            && (forall k :: k in m ==> m[k] != [] && AllIn(Segment, m[k]))
            && (p == Render(toks, m) || p == Render(toks, m) + "\n")
  {
    SearchSound(toks, Anchored, p);
    var m := Search(toks, Anchored, p).value;
    forall k | k in m
      ensures m[k] != [] && AllIn(Segment, m[k])
    {
      var i :| 0 <= i < |toks| && toks[i].Cap? && toks[i].name == k;
      SearchNonEmpty(toks, p, i);
    }
  }

  /** Every `$name` capture of a successful search is non-empty. */
  lemma {:induction false} SearchNonEmpty(toks: seq<Tok>, p: string, i: nat)
    requires DistinctNames(toks)
    requires forall j :: 0 <= j < |toks| && toks[j].Cap? ==> toks[j].cls == Segment
    requires Search(toks, Anchored, p).Some?
    requires i < |toks| && toks[i].Cap?
    ensures toks[i].name in Search(toks, Anchored, p).value
    ensures Search(toks, Anchored, p).value[toks[i].name] != []
    decreases |toks|, |p| + 1
  {
    if toks[0].Lit? {
      DistinctRest(toks);
      assert toks[i] == toks[1..][i - 1];
      SearchNonEmpty(toks[1..], p[1..], i - 1);
    } else {
      TryNonEmpty(toks, p, RunLen(Segment, p), i);
    }
  }

  lemma {:induction false} TryNonEmpty(toks: seq<Tok>, p: string, n: nat, i: nat)
    requires toks != [] && toks[0].Cap? && toks[0].cls == Segment
    requires n <= |p|
    requires DistinctNames(toks)
    requires forall j :: 0 <= j < |toks| && toks[j].Cap? ==> toks[j].cls == Segment
    requires TryLengths(toks[0].name, Segment, toks[1..], Anchored, p, n).Some?
    requires i < |toks| && toks[i].Cap?
    ensures var m := TryLengths(toks[0].name, Segment, toks[1..], Anchored, p, n).value;
            toks[i].name in m && m[toks[i].name] != []
    decreases |toks|, n
  {
    var rest := toks[1..];
    var r := Search(rest, Anchored, p[n..]);
    if r.Some? {
      if i > 0 {
        DistinctRest(toks);
        assert toks[i] == rest[i - 1];
        SearchNonEmpty(rest, p[n..], i - 1);
      }
    } else {
      TryNonEmpty(toks, p, n - 1, i);
    }
  }

  /** For a template whose placeholders each fill a whole segment, `params`
      recovers exactly the values of any URL built from it. */
  lemma ParamsRecover(template: string, m: Captures, url: string, requestUri: string)
    requires url != "" && url != "0"
    requires WholeSegments(ExactPattern(template)) && Fills(ExactPattern(template), m)
    requires DistinctNames(ExactPattern(template))
    requires Sanitize(url) == Render(ExactPattern(template), m)
    ensures Matched(template, Some(url), requestUri)
    ensures Params(template, Some(url), requestUri) == Restrict(m, Names(ExactPattern(template)))
  {
    var p := Probe(Some(url), requestUri);
    ProbeGiven(url, requestUri);
    ExactRecoverAt(template, m, p);
    calc {
      Params(template, Some(url), requestUri);
      Captured(Run(ExactPattern(template), Anchored, p));
      Captured(Some(Restrict(m, Names(ExactPattern(template)))));
    }
  }

  /** A non-empty URL is probed as given, sanitized. */
  lemma ProbeGiven(url: string, requestUri: string)
    requires url != "" && url != "0"
    ensures Probe(Some(url), requestUri) == Sanitize(url)
  {
  }

  lemma ExactRecoverAt(template: string, m: Captures, p: string)
    requires WholeSegments(ExactPattern(template)) && Fills(ExactPattern(template), m)
    requires DistinctNames(ExactPattern(template))
    requires p == Render(ExactPattern(template), m)
    ensures Run(ExactPattern(template), Anchored, p) == Some(Restrict(m, Names(ExactPattern(template))))
  {
    RecoverExact(ExactPattern(template), m, p);
  }

  lemma RecoverExact(toks: seq<Tok>, m: Captures, p: string)
    requires WholeSegments(toks) && Fills(toks, m) && DistinctNames(toks)
    requires p == Render(toks, m)
    ensures Run(toks, Anchored, p) == Some(Restrict(m, Names(toks)))
  {
    SearchRecovers(toks, Anchored, m, []);
    assert Render(toks, m) + [] == p;
    assert Restrict(m, Names(toks)) + map[] == Restrict(m, Names(toks));
  }

  /** Directory mode: the values of a URL built from the prefix are
      recovered, slash-trimmed, and whatever follows the prefix is `file`;
      a URL equal to the prefix has no `file` entry at all. */
  lemma DirParamsRecover(template: string, m: Captures, f: string, url: string, requestUri: string)
    requires url != "" && url != "0"
    requires WholeSegments(DirPattern(template)) && Fills(DirPattern(template), m)
    requires Compiles(DirPattern(template), OptionalFile)
    requires f == [] || f[0] == '/'
    requires Sanitize(url) == Render(DirPattern(template), m) + f
    ensures DirMatched(template, Some(url), requestUri)
    ensures var d := DirParams(template, Some(url), requestUri);
            && d.Keys == Names(DirPattern(template)) + (if f == [] then {} else {"file"})
            && (forall k :: k in Names(DirPattern(template)) ==> d[k] == Normalize(m[k]))
            && (f != [] ==> d["file"] == Normalize(f))
  {
    var p := Probe(Some(url), requestUri);
    ProbeGiven(url, requestUri);
    DirRecoverAt(template, m, f, p);
    assert DirMatched(template, Some(url), requestUri);
    assert DirParams(template, Some(url), requestUri) == NormalizeAll(Run(DirPattern(template), OptionalFile, p).value);
  }

  lemma DirRecoverAt(template: string, m: Captures, f: string, p: string)
    requires WholeSegments(DirPattern(template)) && Fills(DirPattern(template), m)
    requires Compiles(DirPattern(template), OptionalFile)
    requires f == [] || f[0] == '/'
    requires Sanitized(p) && p == Render(DirPattern(template), m) + f
    ensures Run(DirPattern(template), OptionalFile, p).Some?
    ensures var d := NormalizeAll(Run(DirPattern(template), OptionalFile, p).value);
            && d.Keys == Names(DirPattern(template)) + (if f == [] then {} else {"file"})
            && (forall k :: k in Names(DirPattern(template)) ==> d[k] == Normalize(m[k]))
            && (f != [] ==> d["file"] == Normalize(f))
  {
    var toks := DirPattern(template);
    RecoverDir(toks, m, f, p);
    FilledNames(toks, m);
    NormalizeRecovered(m, Names(toks), f);
  }

  lemma FilledNames(toks: seq<Tok>, m: Captures)
    requires Fills(toks, m)
    ensures Names(toks) <= m.Keys
  {
    forall x | x in Names(toks) ensures x in m {
      var i :| 0 <= i < |toks| && toks[i].Cap? && toks[i].name == x;
    }
  }

  /** Normalizing recovered captures plus the optional `file`. */
  lemma NormalizeRecovered(m: Captures, ns: set<string>, f: string)
    requires ns <= m.Keys && "file" !in ns
    ensures var d := NormalizeAll(Restrict(m, ns) + (if f == [] then map[] else map["file" := f]));
            && d.Keys == ns + (if f == [] then {} else {"file"})
            && (forall k :: k in ns ==> d[k] == Normalize(m[k]))
            && (f != [] ==> d["file"] == Normalize(f))
  {
  }

  lemma RecoverDir(toks: seq<Tok>, m: Captures, f: string, p: string)
    requires WholeSegments(toks) && Fills(toks, m) && Compiles(toks, OptionalFile)
    requires f == [] || f[0] == '/'
    requires Sanitized(p) && p == Render(toks, m) + f
    ensures Run(toks, OptionalFile, p) == Some(Restrict(m, Names(toks)) + (if f == [] then map[] else map["file" := f]))
  {
    assert Free(f, '?') by {
      forall i | 0 <= i < |f| ensures f[i] != '?' {
        assert f[i] == p[|p| - |f| + i];
      }
    }
    SearchRecovers(toks, OptionalFile, m, f);
  }

  /** A template that sanitizes to the root `/` matches every path in
      directory mode, and the whole path, slash-trimmed, is the `file`. */
  lemma RootMatchesAll(template: string, url: Option<string>, requestUri: string)
    requires Sanitize(template) == "/"
    ensures DirMatched(template, url, requestUri)
    ensures DirParams(template, url, requestUri) == map["file" := Normalize(Probe(url, requestUri))]
  {
    var toks := DirPattern(template);
    assert toks == [];
    var p := Probe(url, requestUri);
    RunTailOnly(toks, p);
  }

  lemma RunTailOnly(toks: seq<Tok>, p: string)
    requires toks == [] && Sanitized(p)
    ensures Run(toks, OptionalFile, p) == Some(map["file" := p])
  {
  }

  /** The template text as literal tokens. */
  function Lits(t: string): (toks: seq<Tok>)
    ensures |toks| == |t|
    ensures forall i :: 0 <= i < |t| ==> toks[i] == Lit(t[i])
  {
    if t == [] then [] else [Lit(t[0])] + Lits(t[1..])
  }

  /** A template without `$` has no placeholders. */
  lemma {:induction false} TokenizeLiteral(t: string)
    requires Free(t, '$')
    ensures Tokenize(t) == Lits(t)
    decreases |t|
  {
    if t != [] {
      TokenizeLiteral(t[1..]);
    }
  }

  /** A literal pattern matches any subject it is a prefix of, leaving the
      rest to the tail. */
  lemma {:induction false} LiteralPrefix(t: string, tail: Tail, f: string)
    ensures Search(Lits(t), tail, t + f) == TailMatch(tail, f)
  {
    if t == [] {
      assert t + f == f;
    } else {
      assert Lits(t) == [Lit(t[0])] + Lits(t[1..]);
      assert (t + f)[0] == t[0];
      assert (t + f)[1..] == t[1..] + f;
      LiteralPrefix(t[1..], tail, f);
    }
  }

  /** A directory prefix need not end at a segment boundary: a template
      without placeholders (other than the root) also matches any path that
      merely starts with its prefix, `/static` matching `/staticfoo` with
      `file` = `foo`. */
  lemma DirLiteralPrefix(template: string, f: string, url: string, requestUri: string)
    requires url != "" && url != "0"
    requires Free(DirPrefix(template), '$') && DirPrefix(template) != []
    requires f != [] && Sanitize(url) == DirPrefix(template) + f
    ensures DirMatched(template, Some(url), requestUri)
    ensures DirParams(template, Some(url), requestUri) == map["file" := Normalize(f)]
  {
    assert Probe(Some(url), requestUri) == Sanitize(url);
    DirLiteralAt(template, f, Sanitize(url));
    NormalizeFile(f);
  }

  lemma NormalizeFile(f: string)
    ensures NormalizeAll(map["file" := f]) == map["file" := Normalize(f)]
  {
  }

  lemma DirLiteralAt(template: string, f: string, p: string)
    requires Free(DirPrefix(template), '$') && DirPrefix(template) != []
    requires f != [] && Sanitized(p) && p == DirPrefix(template) + f
    ensures Run(DirPattern(template), OptionalFile, p) == Some(map["file" := f])
  {
    var t := DirPrefix(template);
    TokenizeLiteral(t);
    LiteralPrefix(t, OptionalFile, f);
    assert Free(f, '?') by {
      forall i | 0 <= i < |f| ensures f[i] != '?' {
        assert f[i] == p[|t| + i];
      }
    }
    NoNamesInLits(t);
  }

  lemma {:induction false} NoNamesInLits(t: string)
    ensures Names(Lits(t)) == {}
  {
    if t != [] {
      assert Lits(t) == [Lit(t[0])] + Lits(t[1..]);
      NoNamesInLits(t[1..]);
    }
  }
}

=== FILE: values.dfy ===
/** Dynamic values that flow between the router and its handlers, and the
    errors a handler or the router can raise. */
module Values {

  /** The PHP values the model needs to tell apart: `null`, booleans,
      strings and string-keyed arrays. Anything a handler returns that the
      router never inspects is represented by one of these. */
  datatype Value =
    | Null
    | Bool(b: bool)
    | Str(s: string)
    | Dict(entries: map<string, Value>)

  /** An error object: the two `Error`s the route engine raises itself, and
      anything else, with the numeric code PHP exceptions carry. */
  datatype Err =
    | ProtocolViolation  // "Route handler did not call next() or stop()"
    | InvalidHandler     // "Invalid route handler"
    | Thrown(code: int, message: string)

  /** The two request fields the routers read from `$_SERVER`:
      `REQUEST_METHOD` and `REQUEST_URI`. */
  datatype Request = Request(verb: string, uri: string)

  /** How a call into a handler, pipe or callback ended. */
  datatype Outcome = Returned(value: Value) | Threw(error: Err)
}
